=== FILE: README.md ===
# regioclust core in Dafny

A model of the clustering core of regioclust, a Java program for spatially
constrained regression clustering. The first phase, `getHierarchicalClusterTree`,
builds a merge tree over a leaf layer of observations. It uses single,
complete or average linkage, or Ward's criterion. Merges can be restricted to
an adjacency ("contiguity") map and to pairs in which at least one region is
below a size floor. `cutTree` then cuts that tree into a number of clusters.
The second phase, `getFunctionalClusterinTree`, merges neighbouring regions by
the growth of a regression's residual sum of squares. `getCMforCurLayer` lifts
the observation-level neighbour map to the regions of the current layer.

Around the core sit:

- the tree utilities (subtree, leaf layer, contents, leaves for samples);
- the statistics of DataUtils (strip, mean, sum of squares, within sum of
  squares);
- the distance and nearest-neighbour helpers of GeoUtils;
- the `id1,id2` contiguity file format with its writer and reader.

Modules:

- `Results` (results.dfy): `Option`, `Result` and the error kinds.
- `Sequences` (sequences.dfy): a shared fact about removing one element of a sequence.
- `Tree` (tree.dfy): the nodes and the tree utilities of Clustering.java.
  - The tree is an append-only arena: a node's children have smaller ids.
  - Observations are identities (`nat`), as the source compares `double[]`
    by reference.
- `CutTree` (cut_tree.dfy): `cutTree`.
- `Adjacency` (adjacency.dfy): the adjacency update after a merge.
- `Engine` (engine.dfy): the merge loop shared by both phases.
  - A round runs the worker scans one after another. It reduces their
    results and merges the winner.
  - The invariant covers the layer, the contents, the cost caches and the
    adjacency map.
- `Clustering` (clustering.dfy): `getHierarchicalClusterTree`.
- `RegioClust` (regio_clust.dfy): `getFunctionalClusterinTree` and `getCMforCurLayer`.
- `DataUtils` (data_utils.dfy): `strip`, `getMean`, `getSumOfSquares`,
  `getWithinSumOfSquares`.
- `GeoUtils` (geo_utils.dfy): `getDistanceMatrix`, `getKNNs`, `getKNearestFromMatrix`.
- `ContiguityFormat` (contiguity.dfy): `writeContiguityKeyValue`,
  `readContiguityKeyValue` and their round trip.

## Model

| member | source | states |
|---|---|---|
| Tree.Subtree | src/main/java/regioClust/Clustering.java:53-62 | the subtree of a node contains the node, only nodes no younger in the arena, and is closed under children |
| Tree.SubtreeIsLeast | src/main/java/regioClust/Clustering.java:53-62 | the subtree is the least child-closed set containing the node |
| Tree.ContentsUnfold | src/main/java/regioClust/Clustering.java:64-85 | a leaf's contents are its own observations when it has age 0 and nothing otherwise; an inner node's contents are its children's, plus its own observations when its age is 0 |
| Tree.LeafLayer | src/main/java/regioClust/Clustering.java:64-70 | definition without a contract: the age-0 nodes of a node's subtree; Tree.SamplesToTreeLeaves states it for fresh leaves |
| Tree.Contents | src/main/java/regioClust/Clustering.java:80-85 | definition without a contract: the observations of the leaf layer; Tree.ContentsUnfold and Tree.ContentsOfMergeNode state it node by node |
| Tree.ContentsOfMergeNode | src/main/java/regioClust/Clustering.java:80-85 | the contents of a merge node are the union of the contents of its two children |
| Tree.ContentsStable | src/main/java/regioClust/Clustering.java:80-85 | appending nodes to the arena does not change the contents of an existing node |
| Tree.SubtreeStable | src/main/java/regioClust/Clustering.java:53-62 | appending nodes to the arena does not change the subtree of an existing node |
| Tree.TreeToCluster | src/main/java/regioClust/Clustering.java:72-77 | one cluster per root, in root order, each the contents of its root |
| Tree.SamplesToTree | src/main/java/regioClust/Clustering.java:108-117 | definition without a contract: one fresh leaf per sample; Tree.SamplesToTreeLeaves states its shape |
| Tree.SamplesToTreeLeaves | src/main/java/regioClust/Clustering.java:108-117 | one leaf of age 0 per sample, whose leaf layer is itself and whose contents are exactly its sample |
| Tree.GetNodes | src/main/java/regioClust/Clustering.java:120-125 | an element is a node of the map iff it is a key or a neighbour of some key |
| Tree.CollectNodes | src/main/java/regioClust/Clustering.java:120-125 | the source's loop, copying the keys and then adding each key's neighbour set, collects exactly the nodes of the map |
| Tree.GetNodesIsKeys | src/main/java/regioClust/Clustering.java:120-133 | a map's nodes are exactly its keys iff every neighbour is a key, and so for every symmetric map; this is when the lift to leaves succeeds |
| Tree.SamplesCMtoTreeCM | src/main/java/regioClust/Clustering.java:127-143 | succeeds iff every mentioned observation is a key (otherwise the null dereference of line 136); leaf j is a neighbour of leaf i iff observation j is a neighbour of observation i |
| Tree.SamplesCMtoTreeCMSymmetric | src/main/java/regioClust/Clustering.java:127-143 | a symmetric observation map always lifts, and lifts to a symmetric leaf map |
| CutTree.OldestIndex | src/main/java/regioClust/Clustering.java:32-42 | the polled node has the greatest age in the queue, and no earlier queue entry has the same age |
| CutTree.Poll | src/main/java/regioClust/Clustering.java:41-48 | one poll removes the oldest node and adds its children, so the queue grows by the number of children less one |
| CutTree.PollSums | src/main/java/regioClust/Clustering.java:41-48 | polling an inner node of positive age keeps the queue's contents; polling any inner node keeps the queue's leaf count and shrinks its total subtree size |
| CutTree.Cut | src/main/java/regioClust/Clustering.java:31-51 | enough roots are returned as given; otherwise success gives exactly the requested number of nodes; failure means too few roots and reports InsufficientObservations |
| CutTree.CutFailsIff | src/main/java/regioClust/Clustering.java:41-44 | on a layered tree the cut fails iff there are fewer roots than clusters and fewer leaves below them than clusters |
| CutTree.CutKeepsContents | src/main/java/regioClust/Clustering.java:41-50 | the nodes of a successful cut hold exactly the observations of the roots |
| CutTree.PollKeepsDisjoint | src/main/java/regioClust/Clustering.java:41-48 | when every merge joins disjoint halves, replacing the oldest node by its children keeps the queued nodes' observations pairwise disjoint |
| CutTree.CutKeepsDisjoint | src/main/java/regioClust/Clustering.java:31-51 | over pairwise disjoint roots in a tree whose merges join disjoint halves, the nodes of a successful cut hold pairwise disjoint observations |
| CutTree.CutClusters | src/main/java/regioClust/Clustering.java:72-77 | the clusters of a successful cut, one per cut node, together hold exactly the roots' observations |
| CutTree.LeafSumOfLeaves | src/main/java/regioClust/Clustering.java:41-48 | a queue of leaves counts exactly one leaf per entry |
| Adjacency.MergeNeighbours | src/main/java/regioClust/Clustering.java:337-352 | defined iff both merged nodes have entries; the keys become those without the two merged nodes plus the merge node; no set mentions a merged node afterwards |
| Adjacency.MergeNeighboursIsQuotient | src/main/java/regioClust/Clustering.java:337-352 | the new map is the old one with both merged nodes renamed to the merge node: every new key and edge has an old origin and every old edge survives renamed |
| Adjacency.MergeNeighboursKeepsSymmetry | src/main/java/regioClust/Clustering.java:337-352 | merging two nodes of a symmetric map keeps it symmetric |
| Engine.UnionValueIsSpread | src/main/java/regioClust/Clustering.java:236-266 | under the invariant a memoised Ward cost equals a fresh computation of spread(A+B) - spread(A) - spread(B) |
| Engine.Admissible | src/main/java/regioClust/Clustering.java:216-233 | definition without a contract: `i < j`, a registered neighbour under an adjacency map, not both regions at the size floor; Clustering.UnconstrainedAdmission, Clustering.ConstrainedAdmission and RegioClust.RegressionAdmission state it per phase |
| Engine.PairCost | src/main/java/regioClust/Clustering.java:236-283 | definition without a contract: the linkage of the two regions, or the Ward growth spread(A+B) - spread(A) - spread(B) through the memo; Engine.UnionValueIsSpread states the memo is sound |
| Engine.ScanRow | src/main/java/regioClust/Clustering.java:218-288 | after scanning a row, the worker's best is a least-cost admissible pair of its rows so far, the first such in scan order |
| Engine.RowScanBest | src/main/java/regioClust/Clustering.java:218-288 | the inner loop's result is the least-cost admissible pair of the scanned part, earliest on ties |
| Engine.WorkerScan | src/main/java/regioClust/Clustering.java:211-291 | a worker's result covers exactly its rows (row index modulo the thread count): none iff no admissible pair there, otherwise its cheapest, earliest on ties |
| Engine.FindMergePair | src/main/java/regioClust/Clustering.java:205-315 | the round finds nothing iff no pair is admissible; otherwise the winner has least cost, and ties go to the lower worker and then to row-major order |
| Engine.WinnerIsUnique | src/main/java/regioClust/Clustering.java:297-307 | the winner of a round is unique, so the threaded search is deterministic |
| Engine.RoundMemo | src/main/java/regioClust/Clustering.java:236-266 | after a Ward round every admissible pair has a memo entry |
| Engine.RoundMemoSound | src/main/java/regioClust/Clustering.java:236-266 | memo entries computed in a round are the spread of the union of two current regions |
| Engine.Merge | src/main/java/regioClust/Clustering.java:317-352 | the merge succeeds iff no adjacency map is in effect or the second node has an entry (otherwise the null dereference of line 341, line 300 of RegioClust.java in the regression phase); failure reports MissingAdjacencyKey |
| Engine.MergeLayer | src/main/java/regioClust/Clustering.java:317-335 | after a merge the layer is the old one without the two merged nodes, with the fresh merge node appended; the arena grows by that node, whose age is one more than the state's |
| Engine.MergeAdjacency | src/main/java/regioClust/Clustering.java:337-352 | under an adjacency map, the new map is the neighbour merge of the old one |
| Engine.MergeKeepsLayerOk | src/main/java/regioClust/Clustering.java:317-335 | the layer after a merge still lists distinct nodes of a well-formed arena |
| Engine.MergeKeepsContentOk | src/main/java/regioClust/Clustering.java:317-335 | after a merge each active node's region is still its contents in the tree, and no node is older than the state's age |
| Engine.MergeKeepsCacheOk | src/main/java/regioClust/Clustering.java:326-331 | after a merge the Ward node cache and memo still hold the spreads of the current regions |
| Engine.MergeKeepsNodeCost | src/main/java/regioClust/Clustering.java:326-331 | the merge node's cached cost is the spread of its region, and the other entries keep theirs |
| Engine.MergeKeepsMemo | src/main/java/regioClust/Clustering.java:326-331 | dropping the row of the first merged node keeps every memo entry the spread of its current union |
| Engine.MergeKeepsAdjOk | src/main/java/regioClust/Clustering.java:337-352 | after a merge the adjacency map still mentions only nodes of the arena |
| Engine.MergeKeepsInv | src/main/java/regioClust/Clustering.java:317-352 | a merge preserves the engine invariant |
| Engine.MergeKeepsCovered | src/main/java/regioClust/Clustering.java:317-324 | a merge neither loses nor gains observations |
| Engine.MergeKeepsDisjoint | src/main/java/regioClust/Clustering.java:317-324 | disjoint regions stay disjoint after a merge |
| Engine.MergeKeepsChildrenDisjoint | src/main/java/regioClust/Clustering.java:317-324 | when the active regions are disjoint and every merge so far joined disjoint halves, the new merge node joins two disjoint halves too |
| Engine.MergeKeepsLayered | src/main/java/regioClust/Clustering.java:319-322 | a layered arena (leaves age 0, parents older than children) stays layered |
| Engine.SymmetricMergeSucceeds | src/main/java/regioClust/Clustering.java:337-352 | with a symmetric adjacency map the merge never fails, and the map stays symmetric |
| Engine.MergeStep | src/main/java/regioClust/Clustering.java:198-352 | a round keeps the invariant and the arena prefix; it adds one node, shrinks the layer by one and keeps coverage, disjointness of regions and of merge halves, layering and symmetry |
| Engine.ChainExtend | src/main/java/regioClust/Clustering.java:198 | a chain of rounds followed by one more round is a chain |
| Engine.RunIsUnique | src/main/java/regioClust/Clustering.java:198-315 | two finished runs from the same state make the same merges and end in the same state |
| Engine.Agglomerate | src/main/java/regioClust/Clustering.java:198-355 | the loop ends finished, with the merges recorded as a run from the start state; it keeps coverage, disjointness of regions and of merge halves, and layering; it fails only when the recorded run reaches a state whose round winner has a second node without an adjacency entry (the null dereference of line 341), which a symmetric map rules out |
| Engine.Build | src/main/java/regioClust/Clustering.java:174-355 | the shared body of both phases: InvalidInput iff a round is needed and the thread count is not positive; any other failure is a run reaching an unmergeable winner under an asymmetric map; success is a build |
| Engine.Settle | src/main/java/regioClust/Clustering.java:174-355 | a finished run that keeps what the merge loop keeps is a build: the final layer holds the leaf layer's observations, and disjoint leaves under disjoint merges give a disjoint final layer |
| Engine.Dedup | src/main/java/regioClust/Clustering.java:182-190 | the initial layer lists each input node exactly once |
| Engine.MaxAge | src/main/java/regioClust/Clustering.java:181-184 | the start age is the greatest age of the input nodes, 0 for none |
| Engine.StartInv | src/main/java/regioClust/Clustering.java:174-196 | the initial state satisfies the invariant, holds the input nodes with their contents, and copies the adjacency map |
| Engine.StartDisjoint | src/main/java/regioClust/Clustering.java:182-190 | a leaf layer whose different nodes hold disjoint contents gives disjoint starting regions |
| Engine.Start | src/main/java/regioClust/Clustering.java:174-196 | definition without a contract: the deduplicated leaf layer with its contents and spreads, an empty memo and a copy of the adjacency map; Engine.StartInv states its invariant |
| Engine.CoveredIsContents | src/main/java/regioClust/Clustering.java:80-85 | the regions of the active layer together are the tree contents of its nodes |
| Engine.DisjointLayer | src/main/java/regioClust/Clustering.java:80-85 | disjoint active regions are pairwise disjoint tree contents of the layer's nodes |
| Engine.UnconstrainedStopsAtFloor | src/main/java/regioClust/Clustering.java:216-233 | without an adjacency map the engine stops with two or more regions only when all have reached the size floor |
| Clustering.UnconstrainedAdmission | src/main/java/regioClust/Clustering.java:216-233 | without an adjacency map a pair is admitted iff `i < j` and one of its two regions is below the size floor |
| Clustering.ConstrainedAdmission | src/main/java/regioClust/Clustering.java:216-233 | with an adjacency map a pair is admitted iff `i < j`, `i` has an entry listing `j`, and one of the two regions is below the size floor |
| Clustering.HierarchicalClusterTree | src/main/java/regioClust/Clustering.java:150-355 | rejects an empty leaf layer, an empty first node and a needed thread pool of no or a negative number of threads; fails otherwise only on an asymmetric adjacency map, and then exactly because the run reaches a winner whose second node has no entry; success is a finished run from the leaf layer that keeps all observations and layering, adds one node per merge, and keeps disjoint leaves under disjoint merges disjoint |
| RegioClust.RegressionAdmission | src/main/java/regioClust/RegioClust.java:208-219 | the regression phase admits a pair iff `i < j` and `i` has an entry listing `j`, whatever the sizes of the regions |
| RegioClust.FunctionalClusterTree | src/main/java/regioClust/RegioClust.java:144-314 | accepts any leaf layer, but a needed pool of no or a negative number of threads is InvalidInput; fails otherwise only on an asymmetric adjacency map, and then exactly because the run reaches a winner whose second node has no entry (line 300); success is a finished run that keeps all observations, adds one node per merge, and keeps disjoint leaves under disjoint merges disjoint |
| RegioClust.NoAdjacencyNoMerge | src/main/java/regioClust/RegioClust.java:178-183 | without an adjacency map the regression phase merges nothing |
| RegioClust.NodeAdjacency | src/main/java/regioClust/RegioClust.java:316-333 | defined iff every observation of the layer has an entry (otherwise the null dereference of line 326); node y is a neighbour of node x iff an observation of x has a neighbour observation in y |
| RegioClust.NodeAdjacencySymmetric | src/main/java/regioClust/RegioClust.java:316-333 | a symmetric observation map gives a symmetric node map |
| DataUtils.Strip | src/main/java/regioClust/DataUtils.java:262-267 | succeeds iff every selected index is in range; element j of the result is component fa[j] of the input |
| DataUtils.StripCompose | src/main/java/regioClust/DataUtils.java:262-267 | stripping twice is stripping once by the composed index list |
| DataUtils.StripIdentity | src/main/java/regioClust/DataUtils.java:262-267 | stripping by all indices in order gives the vector back |
| DataUtils.Mean | src/main/java/regioClust/DataUtils.java:230-239 | defined iff the cluster is non-empty and every vector is at least as long as the first; component i times the count is the column sum |
| DataUtils.MeanDeviationsCancel | src/main/java/regioClust/DataUtils.java:230-239 | the deviations from the mean sum to zero in every component |
| DataUtils.MeanOfConstant | src/main/java/regioClust/DataUtils.java:230-239 | the mean of copies of one vector is that vector |
| DataUtils.SumOfSquares | src/main/java/regioClust/DataUtils.java:241-253 | an empty cluster gives 0; the result is non-negative, defined iff the mean is, and equals the sum over the cluster of the squared distance to the mean |
| DataUtils.SumOfSquaresOfConstant | src/main/java/regioClust/DataUtils.java:241-253 | copies of one vector have sum of squares 0 for a distance that is 0 on equal vectors |
| DataUtils.SumOfPermutation | src/main/java/regioClust/DataUtils.java:233-235 | a sum over a collection does not depend on the order in which its elements are visited |
| DataUtils.MeanIsOrderFree | src/main/java/regioClust/DataUtils.java:230-239 | the mean of equally long vectors is the same for every iteration order of the collection |
| DataUtils.SumOfSquaresIsOrderFree | src/main/java/regioClust/DataUtils.java:241-253 | the sum of squares of equally long vectors is the same for every iteration order of the collection |
| DataUtils.WithinSumOfSquares | src/main/java/regioClust/DataUtils.java:255-260 | defined iff every cluster's sum of squares is; non-negative |
| DataUtils.WithinSumOfSquaresSplits | src/main/java/regioClust/DataUtils.java:255-260 | the within sum of squares of two lists of clusters is the sum of theirs |
| DataUtils.WithinSumOfSquaresSingle | src/main/java/regioClust/DataUtils.java:255-260 | for one cluster it is that cluster's sum of squares |
| GeoUtils.DistanceMatrix | src/main/java/regioClust/GeoUtils.java:46-58 | one row per sample holding every sample (itself only when asked) at its distance |
| GeoUtils.DistanceMatrixSymmetric | src/main/java/regioClust/GeoUtils.java:46-58 | a symmetric distance gives a symmetric matrix |
| GeoUtils.SortBy | src/main/java/regioClust/GeoUtils.java:64-70 | the priority queue's poll order is a sorted permutation of the samples |
| GeoUtils.InsertBySorted | src/main/java/regioClust/GeoUtils.java:64-70 | inserting into a sorted list keeps it sorted |
| GeoUtils.InsertByPermutes | src/main/java/regioClust/GeoUtils.java:64-70 | inserting adds exactly the new element |
| GeoUtils.KNNs | src/main/java/regioClust/GeoUtils.java:60-79 | one list per sample, of length k, holding the first k polls (after dropping the first when identity is excluded); missing polls are the source's nulls |
| GeoUtils.KNNsAreNearest | src/main/java/regioClust/GeoUtils.java:60-79 | every present neighbour is a sample, and is no farther than every sample not chosen (except the dropped first) |
| GeoUtils.NearestOfRow | src/main/java/regioClust/GeoUtils.java:28-41 | for k at most the row size, the sub-row has k entries of the row, each no farther than any entry left out; for k one past the row size it is the whole row plus the `null` entry of the one poll past the end |
| GeoUtils.KNearestFromMatrix | src/main/java/regioClust/GeoUtils.java:25-44 | fails iff some row is empty (the capacity-0 `PriorityQueue` constructor throws for any k); otherwise one sub-row per row holding its k nearest entries, with the `null` entry when k is one past the row size |
| ContiguityFormat.NatToString | src/main/java/regioClust/GeoUtils.java:191 | the decimal text of a number is a non-empty string of digits |
| ContiguityFormat.DigitsOfNat | src/main/java/regioClust/GeoUtils.java:160-161 | the digits of a number's text spell the number |
| ContiguityFormat.ParseInt | src/main/java/regioClust/GeoUtils.java:160-161 | a parsed number is in Java's int range and comes from text starting with a digit or a sign |
| ContiguityFormat.ParseIntOfNat | src/main/java/regioClust/GeoUtils.java:160-161 | parsing the text of an int-sized number gives the number back |
| ContiguityFormat.LinesCons | src/main/java/regioClust/GeoUtils.java:155-156 | text up to the first line feed is the first line read |
| ContiguityFormat.ParseLineOfPair | src/main/java/regioClust/GeoUtils.java:158-161 | a written line `i,j` parses back to `(i, j)` |
| ContiguityFormat.Index | src/main/java/regioClust/GeoUtils.java:182-184 | the index of a sample is its last position in the list; absent iff it is not in the list |
| ContiguityFormat.Pairs | src/main/java/regioClust/GeoUtils.java:188-192 | the written pairs are exactly the listed key-neighbour pairs |
| ContiguityFormat.PairsOfListing | src/main/java/regioClust/GeoUtils.java:188-192 | the pairs of a listing of a map are exactly its edges |
| ContiguityFormat.Write | src/main/java/regioClust/GeoUtils.java:181-197 | fails iff some key is not a sample (a null index unboxed) |
| ContiguityFormat.ReadLines | src/main/java/regioClust/GeoUtils.java:156-168 | reading keeps the keys read so far, and only adds samples with non-empty neighbour sets of samples |
| ContiguityFormat.Read | src/main/java/regioClust/GeoUtils.java:150-179 | the map read has sample keys and non-empty neighbour sets of samples |
| ContiguityFormat.ReadStopsAtBadLine | src/main/java/regioClust/GeoUtils.java:156-168 | a line that fails to parse ends reading: nothing after it is read |
| ContiguityFormat.ReadBody | src/main/java/regioClust/GeoUtils.java:156-167 | reading the written body adds every written pair to the map |
| ContiguityFormat.AddAllContents | src/main/java/regioClust/GeoUtils.java:163-166 | adding pairs gives the old keys plus the pair keys, and each key's old set plus its pair neighbours |
| ContiguityFormat.ReadOfWrite | src/main/java/regioClust/GeoUtils.java:150-197 | reading what was written adds all written pairs to an empty map |
| ContiguityFormat.AddAllOfListing | src/main/java/regioClust/GeoUtils.java:163-166 | adding the pairs of a map's listing to an empty map gives the map without its empty sets |
| ContiguityFormat.RoundTrip | src/main/java/regioClust/GeoUtils.java:150-197 | reading what was written gives the original map back, except keys with no neighbours, which write no line |

## Left out

- File and shapefile I/O, `main`, the parameters class, the geometry-based
  `getContiguityMap`, `LinearModel` and `SupervisedUtils` are not part of this
  model.
  - The regression's residual sum of squares is a parameter `rss`.
  - Ward's spread is a parameter `spread`, the linkages a parameter `link`
    over two regions.
  - The contiguity writer and reader work on text, not on a file handle.
- Doubles are modelled as `real`: no rounding, no NaN, no infinities.
  - The source's sentinels are `Option` in the model: the `Double.MAX_VALUE`
    start of the worker minimum and the `+Infinity` start of the regression
    search.
  - So a pair whose cost is exactly `Double.MAX_VALUE` or `+Infinity`, which
    the source's strict `<` never selects, is selectable in the model.
  - `complete_linkage` starts its maximum at `Double.MIN_VALUE`; the linkage
    is an opaque function here.
- The thread pool runs worker scans in parallel. The model runs them one
  after the other and reduces them in worker order, as the source does after
  `Future.get`.
  - The shared `ConcurrentHashMap` memo gets the same values in either order.
- Hash-map and hash-set iteration orders are parameters or fixed choices:
  - the leaf order of `samplesCMtoTreeCM` (`order`);
  - the entries order of the contiguity writer (`entries`);
  - the active layer's key order. The model keeps the layer in insertion
    order: merged nodes removed, merge node appended.
  The source's `keySet()` order follows the identity hash codes of the
  `TreeNode` keys (the class does not override `hashCode`), so it can differ
  from one execution to the next. Engine.RunIsUnique holds for the model's
  fixed order only.
  - Engine.FindMergePair: ties in cost are resolved by this layer order.
    Another iteration order can select another pair of equal cost.
  - Engine.Admissible: under an asymmetric adjacency map the layer order
    also decides admission, since only the earlier node's entry is
    consulted.
- Engine.FindMergePair: every worker scan returns a result. In the source
  an `ExecutionException` is caught outside the loop over the futures
  (Clustering.java lines 299-312, RegioClust.java lines 257-271), so a
  throwing worker ends the reduction early with the best found so far. A
  worker can throw when the Ward mean loop (Clustering.java lines 242-246)
  indexes past a vector shorter than the first, or when `LinearModel`
  throws. The total `spread` and `rss` parameters make this unreachable in
  the model.
- Engine.PairCost: the Ward and regression union value is the spread of
  the set union of the two regions. The source computes it over the two
  regions one after the other: the Ward mean sums both regions' vectors and
  divides by the sum of their sizes (Clustering.java lines 241-250), and the
  regression gets both sets appended to one list (RegioClust.java lines
  225-227). The two agree when the regions are disjoint. They are whenever
  the leaf layer's different nodes hold disjoint contents: Engine.Agglomerate
  keeps disjointness, and Clustering.HierarchicalClusterTree and
  RegioClust.FunctionalClusterTree state it of their result. For a leaf
  layer whose nodes share observations (a node listed with one of its own
  descendants, say) the model counts a shared observation once where the
  source counts it twice. So the costs, the cached merge-node spread
  (Clustering.java line 329, RegioClust.java line 289) and possibly the
  winner differ.
- Engine.Start: under a linkage cost the model does not fill the node cost
  cache. The source fills it with `getSumOfSquares` but only reads it for
  Ward.
- The first phase's call of `getSumOfSquares` for a vector length that
  differs from the first is not modelled as a failure. The spread is a total
  function of a region.
- Clustering.HierarchicalClusterTree: the source reads the first observation's
  length. It throws on an empty leaf layer or an empty first node; the model
  returns InvalidInput. `Executors.newFixedThreadPool` throws for a thread
  count of zero or less once a round is needed (line 205, line 197 of
  RegioClust.java); the model returns InvalidInput too.
- Clustering.HierarchicalClusterTree and RegioClust.FunctionalClusterTree
  require every node the adjacency map mentions to be in the arena. The
  source's maps hold live node objects.
- GeoUtils.KNearestFromMatrix: requires k to be at most one more than every
  non-empty row's size. Past that the source loops forever: once the queue
  is empty every poll puts the same `null` key, so the sub-row never grows
  again.
- GeoUtils.NearestOfRow: requires k to be at most one more than the row's
  size, for the same reason.
- GeoUtils.KNNs: a poll past the end of the queue is `None` (Java's `null`),
  and k is not bounded by the sample count.
- ContiguityFormat.Lines: only `\n` ends a line. `readLine` also accepts
  `\r` and `\r\n`.
- ContiguityFormat.ParseInt: accepts ASCII digits only. Java's
  `Integer.parseInt` also accepts other Unicode decimal digits.
- ContiguityFormat.Write: an `IOException` in the middle of writing, which
  leaves a partial file, is not modelled.
- CutTree.Cut: among nodes of equal age the model polls the first in queue
  order. The source's binary heap may pick another one of the same age. The
  returned list is in queue order, not the heap's array order.
- `getHierarchicalClusterTree`'s four-argument overload only supplies
  defaults (`Integer.MAX_VALUE`, processor count).

=== FILE: adjacency.dfy ===
/** The adjacency map of the merge engines: a node is mapped to the set of
    nodes it may merge with. Both engines rewrite it in the same way after
    every merge (Clustering.java and RegioClust.java). */
module Adjacency {
  import opened Results

  /** Every neighbour is itself a key and lists the node back. */
  ghost predicate Symmetric<T>(m: map<T, set<T>>) {
    forall x, y :: x in m && y in m[x] ==> y in m && x in m[y]
  }

  /** `mn` is a fresh node: neither a key nor anybody's neighbour. */
  ghost predicate Fresh<T>(m: map<T, set<T>>, mn: T) {
    mn !in m && forall k :: k in m ==> mn !in m[k]
  }

  /** The node that `x` becomes once `c1` and `c2` are merged into `mn`. */
  function Rename<T(==)>(x: T, c1: T, c2: T, mn: T): T {
    if x == c1 || x == c2 then mn else x
  }

  /** The adjacency rewrite after merging `c1` and `c2` into `mn`: the keys
      `c1` and `c2` are replaced by `mn`, whose set is the union of theirs,
      and then every set that mentions `c1` or `c2` (the new set of `mn`
      included) loses both and gains `mn`. The source dereferences the
      removed sets of both `c1` and `c2`, so a missing key is an error. */
  function MergeNeighbours<T(==)>(m: map<T, set<T>>, c1: T, c2: T, mn: T): (r: Option<map<T, set<T>>>)
    requires c1 != c2 && Fresh(m, mn)
    ensures r.Some? <==> c1 in m && c2 in m
    ensures r.Some? ==> r.value.Keys == m.Keys - {c1, c2} + {mn}
    ensures r.Some? ==> forall k :: k in r.value ==> c1 !in r.value[k] && c2 !in r.value[k]
    ensures r.Some? ==> forall k :: k in m && k != c1 && k != c2 ==>
              r.value[k] - {mn} == m[k] - {c1, c2}
  {
    if c1 !in m || c2 !in m then None
    else
      var m1 := (m - {c1, c2})[mn := m[c1] + m[c2]];
      Some(map k | k in m1 :: if c1 in m1[k] || c2 in m1[k] then (m1[k] - {c1, c2}) + {mn} else m1[k])
  }

  /** The rewritten map is the quotient of the old one under `Rename`:
      `y` neighbours `x` afterwards exactly when some old neighbour pair
      renames to `(x, y)`. */
  lemma MergeNeighboursIsQuotient<T>(m: map<T, set<T>>, c1: T, c2: T, mn: T)
    requires c1 != c2 && Fresh(m, mn) && c1 in m && c2 in m
    ensures var r := MergeNeighbours(m, c1, c2, mn).value;
      && (forall x :: x in r <==> exists k :: k in m && Rename(k, c1, c2, mn) == x)
      && (forall x, y :: x in r ==>
            (y in r[x] <==> exists k, z :: k in m && z in m[k] && Rename(k, c1, c2, mn) == x && Rename(z, c1, c2, mn) == y))
  {
    var r := MergeNeighbours(m, c1, c2, mn).value;
    forall x | true
      ensures x in r <==> exists k :: k in m && Rename(k, c1, c2, mn) == x
    {
      if x in r {
        if x == mn {
          assert Rename(c1, c1, c2, mn) == x;
        } else {
          assert Rename(x, c1, c2, mn) == x;
        }
      }
    }
    forall x, y | x in r
      ensures y in r[x] <==> exists k, z :: k in m && z in m[k] && Rename(k, c1, c2, mn) == x && Rename(z, c1, c2, mn) == y
    {
      if y in r[x] {
        var k := if x == mn then (if y == mn then (if exists z :: z in m[c1] && (z == c1 || z == c2) then c1 else c2)
                                 else (if y in m[c1] then c1 else c2))
                 else x;
        if y == mn {
          var z :| z in m[k] && (z == c1 || z == c2);
          assert Rename(z, c1, c2, mn) == y;
        } else {
          assert y in m[k] && Rename(y, c1, c2, mn) == y;
        }
      }
    }
  }

  /** Every old neighbour pair survives the merge under its new names. */
  lemma RenamedEdgeSurvives<T>(m: map<T, set<T>>, c1: T, c2: T, mn: T, k: T, z: T)
    requires c1 != c2 && Fresh(m, mn) && c1 in m && c2 in m
    requires k in m && z in m[k]
    ensures var r := MergeNeighbours(m, c1, c2, mn).value;
      Rename(k, c1, c2, mn) in r && Rename(z, c1, c2, mn) in r[Rename(k, c1, c2, mn)]
  {
  }

  /** Every neighbour pair after the merge comes from an old pair. */
  lemma EdgeOrigin<T>(m: map<T, set<T>>, c1: T, c2: T, mn: T, x: T, y: T) returns (k: T, z: T)
    requires c1 != c2 && Fresh(m, mn) && c1 in m && c2 in m
    requires var r := MergeNeighbours(m, c1, c2, mn).value; x in r && y in r[x]
    ensures k in m && z in m[k] && Rename(k, c1, c2, mn) == x && Rename(z, c1, c2, mn) == y
  {
    MergeNeighboursIsQuotient(m, c1, c2, mn);
    k, z :| k in m && z in m[k] && Rename(k, c1, c2, mn) == x && Rename(z, c1, c2, mn) == y;
  }

  /** Merging keeps a symmetric adjacency symmetric. */
  lemma MergeNeighboursKeepsSymmetry<T>(m: map<T, set<T>>, c1: T, c2: T, mn: T)
    requires c1 != c2 && Fresh(m, mn) && c1 in m && c2 in m
    requires Symmetric(m)
    ensures Symmetric(MergeNeighbours(m, c1, c2, mn).value)
  {
    var r := MergeNeighbours(m, c1, c2, mn).value;
    forall x, y | x in r && y in r[x]
      ensures y in r && x in r[y]
    {
      var k, z := EdgeOrigin(m, c1, c2, mn, x, y);
      assert z in m && k in m[z];
      RenamedEdgeSurvives(m, c1, c2, mn, z, k);
    }
  }
}

=== FILE: clustering.dfy ===
/** `getHierarchicalClusterTree` of Clustering.java: agglomerative
    clustering of a leaf layer by one of the linkages or Ward's criterion,
    optionally restricted to an adjacency map and to pairs in which at
    least one region is below a size floor. */
module Clustering {
  import opened Results
  import opened Tree
  import opened Adjacency
  import opened Engine

  /** Every node an adjacency map mentions is a node of the arena. */
  ghost predicate MentionsArena(a: Arena, cm: map<NodeId, set<NodeId>>) {
    forall x :: x in cm ==> x < |a| && forall y :: y in cm[x] ==> y < |a|
  }

  /** The engine settings of `getHierarchicalClusterTree`: the adjacency
      constraint is on exactly when a map is given, and the size floor is
      always in effect. */
  function ClusteringParams(model: CostModel, cm: Option<map<NodeId, set<NodeId>>>, minSize: int, workers: int): (p: Params)
    ensures p.constrained <==> cm.Some?
    ensures p.minSize == Some(minSize) && p.model == model && p.workers == workers
  {
    Params(model, cm.Some?, Some(minSize), workers)
  }

  /** Without an adjacency map every pair `i < j` of the layer is
      considered, and it is admitted exactly when one of the two regions is
      below the size floor. */
  lemma UnconstrainedAdmission(model: CostModel, minSize: int, workers: int, st: State, i: nat, j: nat)
    ensures Admissible(ClusteringParams(model, None, minSize, workers), st, i, j) <==>
      i < j < |st.layer| && (|Region(st, st.layer[i])| < minSize || |Region(st, st.layer[j])| < minSize)
  {
  }

  /** With an adjacency map a pair `i < j` must in addition be registered:
      `i` has an entry that lists `j`. */
  lemma ConstrainedAdmission(model: CostModel, cm: map<NodeId, set<NodeId>>, minSize: int, workers: int, st: State, i: nat, j: nat)
    ensures Admissible(ClusteringParams(model, Some(cm), minSize, workers), st, i, j) <==>
      && i < j < |st.layer|
      && st.layer[i] in st.adj && st.layer[j] in st.adj[st.layer[i]]
      && (|Region(st, st.layer[i])| < minSize || |Region(st, st.layer[j])| < minSize)
  {
  }

  function AdjacencyOf(cm: Option<map<NodeId, set<NodeId>>>): map<NodeId, set<NodeId>> {
    if cm.Some? then cm.value else map[]
  }

  /** Builds the merge tree above `leafLayer` and returns the final state,
      whose layer holds the roots. The source reads the vector length off
      the first observation of the first node, so an empty leaf layer or an
      empty first node is rejected, as is a run that needs a thread pool of
      no or a negative number of threads. */
  method HierarchicalClusterTree(a: Arena, leafLayer: seq<NodeId>, cm: Option<map<NodeId, set<NodeId>>>,
                                 model: CostModel, minSize: int, workers: int)
    returns (r: Result<State>, merges: seq<Candidate>)
    requires WellFormed(a) && InArena(a, leafLayer)
    requires cm.Some? ==> MentionsArena(a, cm.value)
    ensures r.Failure? && r.error == InvalidInput <==>
      leafLayer == [] || Contents(a, leafLayer[0]) == {} || (workers <= 0 && |Dedup(leafLayer)| > 1)
    ensures r.Failure? ==> r.error == InvalidInput || (r.error == MissingAdjacencyKey && cm.Some? && !Symmetric(cm.value))
    ensures r.Failure? && r.error == MissingAdjacencyKey ==>
      var p := ClusteringParams(model, cm, minSize, workers);
      StuckAfter(p, Start(p, a, leafLayer, AdjacencyOf(cm)), merges)
    ensures r.Success? ==> Built(ClusteringParams(model, cm, minSize, workers), a, leafLayer, AdjacencyOf(cm), merges, r.value)
  {
    if leafLayer == [] || Contents(a, leafLayer[0]) == {} {
      return Failure(InvalidInput), [];
    }
    r, merges := Build(ClusteringParams(model, cm, minSize, workers), a, leafLayer, AdjacencyOf(cm));
  }
}

=== FILE: contiguity.dfy ===
/** The contiguity file format of GeoUtils.java: a header line `id1,id2`,
    then one line `i,j` per neighbour pair, `i` and `j` being positions in
    the sample list. File handles are left out: the writer produces the
    text and the reader consumes it. */
module ContiguityFormat {
  import opened Results

  const Header: string := "id1,id2"

  // ---------------------------------------------------------------------
  // Numbers as text

  predicate IsDigit(c: char) {
    '0' <= c <= '9'
  }

  predicate AllDigits(s: string) {
    forall k :: 0 <= k < |s| ==> IsDigit(s[k])
  }

  function DigitChar(d: nat): (c: char)
    requires d < 10
    ensures IsDigit(c) && (c as int) - ('0' as int) == d
  {
    (('0' as int) + d) as char
  }

  /** The decimal text of a non-negative number, as Java prints an `int`. */
  function NatToString(n: nat): (s: string)
    ensures |s| >= 1 && AllDigits(s)
    decreases n
  {
    if n < 10 then [DigitChar(n)] else NatToString(n / 10) + [DigitChar(n % 10)]
  }

  /** The value of a string of decimal digits. */
  function DigitsValue(s: string): nat
    requires AllDigits(s)
  {
    if s == [] then 0 else DigitsValue(s[..|s| - 1]) * 10 + ((s[|s| - 1] as int) - ('0' as int))
  }

  lemma {:induction false} DigitsOfNat(n: nat)
    ensures DigitsValue(NatToString(n)) == n
    decreases n
  {
    if n >= 10 {
      var s := NatToString(n);
      DigitsOfNat(n / 10);
      assert s[..|s| - 1] == NatToString(n / 10);
    }
  }

  /** `Integer.parseInt`: an optional sign, at least one decimal digit, and
      a value within the 32-bit range; anything else is a format error. */
  function ParseInt(s: string): (r: Option<int>)
    ensures r.Some? ==> -0x8000_0000 <= r.value <= 0x7fff_ffff
    ensures r.Some? ==> s != [] && (IsDigit(s[0]) || s[0] == '-' || s[0] == '+')
  {
    if s == [] then None
    else
      var signed := s[0] == '-' || s[0] == '+';
      var digits := if signed then s[1..] else s;
      if digits == [] || !AllDigits(digits) then None
      else
        var d: int := DigitsValue(digits);
        var v := if s[0] == '-' then -d else d;
        if -0x8000_0000 <= v <= 0x7fff_ffff then Some(v) else None
  }

  /** Printing and parsing a 32-bit non-negative number round-trips. */
  lemma ParseIntOfNat(n: nat)
    requires n <= 0x7fff_ffff
    ensures ParseInt(NatToString(n)) == Some(n)
  {
    DigitsOfNat(n);
  }

  // ---------------------------------------------------------------------
  // Lines and fields

  /** Position of the first `c` in `s`, `|s|` when there is none. */
  function FirstIndex(s: string, c: char): (i: nat)
    ensures i <= |s|
    ensures forall k :: 0 <= k < i ==> s[k] != c
    ensures i < |s| ==> s[i] == c
  {
    if s == [] then 0 else if s[0] == c then 0 else 1 + FirstIndex(s[1..], c)
  }

  lemma FirstIndexAt(t: string, c: char, i: nat)
    requires i < |t| && t[i] == c && forall k :: 0 <= k < i ==> t[k] != c
    ensures FirstIndex(t, c) == i
  {
  }

  lemma FirstIndexNone(t: string, c: char)
    requires forall k :: 0 <= k < |t| ==> t[k] != c
    ensures FirstIndex(t, c) == |t|
  {
  }

  /** The lines `readLine` returns one after the other: text between line
      feeds, the text after a final line feed not counting as a line. */
  function Lines(t: string): seq<string>
    decreases |t|
  {
    if t == [] then []
    else
      var i := FirstIndex(t, '\n');
      if i == |t| then [t] else [t[..i]] + Lines(t[i + 1..])
  }

  lemma LinesCons(s: string, rest: string)
    requires '\n' !in s
    ensures Lines(s + "\n" + rest) == [s] + Lines(rest)
  {
    var t := s + "\n" + rest;
    forall k | 0 <= k < |s| ensures t[k] != '\n' {
      assert t[k] == s[k];
    }
    FirstIndexAt(t, '\n', |s|);
    assert t[..|s|] == s && t[|s| + 1..] == rest;
  }

  /** The first two comma-separated fields of a line, if it has a comma.
      Java's `split` drops trailing empty fields, which makes `s[1]`
      missing where this gives an empty field; both make the line fail. */
  function FirstTwoFields(line: string): Option<(string, string)> {
    var i := FirstIndex(line, ',');
    if i == |line| then None
    else
      var rest := line[i + 1..];
      Some((line[..i], rest[..FirstIndex(rest, ',')]))
  }

  /** The two numbers of a data line. */
  function ParseLine(line: string): Option<(int, int)> {
    match FirstTwoFields(line)
    case None => None
    case Some((f0, f1)) =>
      match (ParseInt(f0), ParseInt(f1))
      case (Some(a), Some(b)) => Some((a, b))
      case _ => None
  }

  lemma ParseLineOfPair(a: nat, b: nat)
    requires a <= 0x7fff_ffff && b <= 0x7fff_ffff
    ensures ParseLine(NatToString(a) + "," + NatToString(b)) == Some((a, b))
    ensures '\n' !in NatToString(a) + "," + NatToString(b)
  {
    var sa, sb := NatToString(a), NatToString(b);
    var line := sa + "," + sb;
    forall k | 0 <= k < |line| ensures line[k] != '\n' && (k != |sa| ==> IsDigit(line[k])) {
      if k < |sa| {
        assert line[k] == sa[k];
      } else if k > |sa| {
        assert line[k] == sb[k - |sa| - 1];
      }
    }
    FirstIndexAt(line, ',', |sa|);
    assert line[..|sa|] == sa && line[|sa| + 1..] == sb;
    FirstIndexNone(sb, ',');
    assert sb[..|sb|] == sb;
    ParseIntOfNat(a);
    ParseIntOfNat(b);
  }

  // ---------------------------------------------------------------------
  // Writing

  /** The position the writer prints for a sample: its last position in
      the list, since later entries of the index map overwrite earlier ones. */
  function Index<T(==,!new)>(samples: seq<T>, x: T): (r: Option<nat>)
    ensures r.Some? <==> x in samples
    ensures r.Some? ==> r.value < |samples| && samples[r.value] == x
    ensures r.Some? ==> forall k :: r.value < k < |samples| ==> samples[k] != x
  {
    if samples == [] then None
    else if samples[|samples| - 1] == x then Some(|samples| - 1)
    else
      var r := Index(samples[..|samples| - 1], x);
      assert forall y :: y in samples <==> y in samples[..|samples| - 1] || y == samples[|samples| - 1];
      r
  }

  /** `entries` lists every key of `m` once, each with a sequence holding
      exactly its neighbours: the iteration order of the source's hash map
      and sets. */
  ghost predicate ListsMap<T(!new)>(entries: seq<(T, seq<T>)>, m: map<T, set<T>>) {
    && (forall i, j :: 0 <= i < j < |entries| ==> entries[i].0 != entries[j].0)
    && (forall i :: 0 <= i < |entries| ==> entries[i].0 in m && (forall y :: y in entries[i].1 <==> y in m[entries[i].0]))
    && (forall x :: x in m ==> exists i :: 0 <= i < |entries| && entries[i].0 == x)
  }

  /** Some listed entry has key `x` and lists neighbour `y`. */
  ghost predicate Listed<T>(entries: seq<(T, seq<T>)>, x: T, y: T) {
    exists i :: 0 <= i < |entries| && entries[i].0 == x && y in entries[i].1
  }

  /** The (key, neighbour) pairs in writing order. */
  function Pairs<T(!new)>(entries: seq<(T, seq<T>)>): (ps: seq<(T, T)>)
    ensures forall x, y :: (x, y) in ps <==> Listed(entries, x, y)
  {
    if entries == [] then []
    else
      var e := entries[0];
      var rest := Pairs(entries[1..]);
      var here := seq(|e.1|, k requires 0 <= k < |e.1| => (e.0, e.1[k]));
      forall x, y ensures (x, y) in here + rest <==> Listed(entries, x, y) {
        if x == e.0 && y in e.1 {
          var k :| 0 <= k < |e.1| && e.1[k] == y;
          assert here[k] == (x, y);
        }
        if Listed(entries, x, y) {
          var i :| 0 <= i < |entries| && entries[i].0 == x && y in entries[i].1;
          if i > 0 {
            assert entries[1..][i - 1] == entries[i];
          }
        }
        if Listed(entries[1..], x, y) {
          var i :| 0 <= i < |entries[1..]| && entries[1..][i].0 == x && y in entries[1..][i].1;
          assert entries[i + 1] == entries[1..][i];
        }
      }
      here + rest
  }

  /** For a listing of a map, the pairs are exactly its neighbour pairs. */
  lemma PairsOfListing<T(!new)>(entries: seq<(T, seq<T>)>, m: map<T, set<T>>)
    requires ListsMap(entries, m)
    ensures forall x, y :: (x, y) in Pairs(entries) <==> x in m && y in m[x]
  {
    forall x, y ensures (x, y) in Pairs(entries) <==> x in m && y in m[x] {
      if x in m && y in m[x] {
        var i :| 0 <= i < |entries| && entries[i].0 == x;
        assert y in entries[i].1;
        assert Listed(entries, x, y);
      }
    }
  }

  /** The text of a position, `null` for a neighbour missing from the list. */
  function IndexText(i: Option<nat>): string {
    if i.Some? then NatToString(i.value) else "null"
  }

  function Body<T(==,!new)>(samples: seq<T>, ps: seq<(T, T)>): string {
    if ps == [] then ""
    else IndexText(Index(samples, ps[0].0)) + "," + IndexText(Index(samples, ps[0].1)) + "\n" + Body(samples, ps[1..])
  }

  /** `writeContiguityKeyValue`: the header and one line per pair. A key
      missing from the sample list makes the source unbox a null index. */
  function Write<T(==,!new)>(m: map<T, set<T>>, samples: seq<T>, entries: seq<(T, seq<T>)>): (r: Result<string>)
    requires ListsMap(entries, m)
    ensures r.Success? <==> forall x :: x in m ==> x in samples
    ensures r.Failure? ==> r.error == InvalidInput
  {
    if exists i :: 0 <= i < |entries| && entries[i].0 !in samples then Failure(InvalidInput)
    else Success(Header + "\n" + Body(samples, Pairs(entries)))
  }

  // ---------------------------------------------------------------------
  // Reading

  /** Adds `b` to the neighbour set of `a`, creating it on first sight. */
  function AddNeighbour<T>(cm: map<T, set<T>>, a: T, b: T): map<T, set<T>> {
    cm[a := (if a in cm then cm[a] else {}) + {b}]
  }

  /** The map read so far has sample keys and non-empty sets of samples. */
  ghost predicate FromSamples<T>(cm: map<T, set<T>>, samples: seq<T>) {
    forall a :: a in cm ==> a in samples && cm[a] != {} && forall b :: b in cm[a] ==> b in samples
  }

  lemma AddNeighbourFromSamples<T>(cm: map<T, set<T>>, samples: seq<T>, i: nat, j: nat)
    requires FromSamples(cm, samples) && i < |samples| && j < |samples|
    ensures FromSamples(AddNeighbour(cm, samples[i], samples[j]), samples)
  {
  }

  /** Reads data lines until the end or the first line that fails to parse
      or names a position outside the list; the source catches that
      exception outside its loop, so the map read so far is the result. */
  function ReadLines<T>(samples: seq<T>, lines: seq<string>, cm: map<T, set<T>>): (r: map<T, set<T>>)
    ensures FromSamples(cm, samples) ==> FromSamples(r, samples)
    ensures cm.Keys <= r.Keys
  {
    if lines == [] then cm
    else
      match ParseLine(lines[0])
      case None => cm
      case Some((i, j)) =>
        if 0 <= i < |samples| && 0 <= j < |samples|
        then
          var cm' := AddNeighbour(cm, samples[i], samples[j]);
          assert cm.Keys <= cm'.Keys;
          assert FromSamples(cm, samples) ==> FromSamples(cm', samples) by {
            if FromSamples(cm, samples) {
              AddNeighbourFromSamples(cm, samples, i, j);
            }
          }
          ReadLines(samples, lines[1..], cm')
        else cm
  }

  /** Reading a good first line adds its pair and reads on. */
  lemma ReadLinesCons<T>(samples: seq<T>, line: string, rest: seq<string>, cm: map<T, set<T>>, i: nat, j: nat)
    requires ParseLine(line) == Some((i, j)) && i < |samples| && j < |samples|
    ensures ReadLines(samples, [line] + rest, cm) == ReadLines(samples, rest, AddNeighbour(cm, samples[i], samples[j]))
  {
    assert ([line] + rest)[0] == line;
    assert ([line] + rest)[1..] == rest;
  }

  /** `readContiguityKeyValue`: skips the header line and reads the rest. */
  function Read<T>(samples: seq<T>, text: string): (r: map<T, set<T>>)
    ensures FromSamples(r, samples)
  {
    var ls := Lines(text);
    if |ls| <= 1 then map[] else ReadLines(samples, ls[1..], map[])
  }

  /** Reading stops at a bad line: whatever follows it is ignored. */
  lemma {:induction false} ReadStopsAtBadLine<T>(samples: seq<T>, good: seq<string>, bad: string, rest: seq<string>, cm: map<T, set<T>>)
    requires ParseLine(bad).None?
    ensures ReadLines(samples, good + [bad] + rest, cm) == ReadLines(samples, good, cm)
    decreases |good|
  {
    if good == [] {
      assert good + [bad] + rest == [bad] + rest;
    } else {
      assert (good + [bad] + rest)[0] == good[0];
      assert (good + [bad] + rest)[1..] == good[1..] + [bad] + rest;
      match ParseLine(good[0])
      case None =>
      case Some((i, j)) =>
        if 0 <= i < |samples| && 0 <= j < |samples| {
          ReadStopsAtBadLine(samples, good[1..], bad, rest, AddNeighbour(cm, samples[i], samples[j]));
        }
    }
  }

  // ---------------------------------------------------------------------
  // The round trip

  /** Adding the pairs one after the other. */
  function AddAll<T>(cm: map<T, set<T>>, ps: seq<(T, T)>): map<T, set<T>>
    decreases |ps|
  {
    if ps == [] then cm else AddAll(AddNeighbour(cm, ps[0].0, ps[0].1), ps[1..])
  }

  /** Reading the lines written for some pairs adds those pairs. */
  lemma {:induction false} ReadBody<T(!new)>(samples: seq<T>, ps: seq<(T, T)>, cm: map<T, set<T>>)
    requires |samples| <= 0x8000_0000
    requires forall k :: 0 <= k < |ps| ==> ps[k].0 in samples && ps[k].1 in samples
    ensures ReadLines(samples, Lines(Body(samples, ps)), cm) == AddAll(cm, ps)
    decreases |ps|
  {
    if ps != [] {
      var i, j := Index(samples, ps[0].0).value, Index(samples, ps[0].1).value;
      var line, rest := NatToString(i) + "," + NatToString(j), Body(samples, ps[1..]);
      ParseLineOfPair(i, j);
      LinesCons(line, rest);
      assert Body(samples, ps) == line + "\n" + rest;
      ReadLinesCons(samples, line, Lines(rest), cm, i, j);
      ReadBody(samples, ps[1..], AddNeighbour(cm, ps[0].0, ps[0].1));
    }
  }

  /** Some pair starts at `a`. */
  ghost predicate HasKey<T(!new)>(ps: seq<(T, T)>, a: T) {
    exists b :: (a, b) in ps
  }

  /** The pairs added: a key is present when it was present or some pair
      starts at it, and a neighbour when it was or some pair links the two. */
  lemma {:induction false} AddAllContents<T(!new)>(cm: map<T, set<T>>, ps: seq<(T, T)>)
    ensures forall a :: a in AddAll(cm, ps) <==> a in cm || HasKey(ps, a)
    ensures forall a, b :: a in AddAll(cm, ps) ==>
      (b in AddAll(cm, ps)[a] <==> (a in cm && b in cm[a]) || (a, b) in ps)
    decreases |ps|
  {
    if ps != [] {
      var cm1 := AddNeighbour(cm, ps[0].0, ps[0].1);
      AddAllContents(cm1, ps[1..]);
      assert ps == [ps[0]] + ps[1..];
      forall a ensures HasKey(ps, a) <==> a == ps[0].0 || HasKey(ps[1..], a) {
        if HasKey(ps, a) {
          var b :| (a, b) in ps;
          assert (a, b) == ps[0] || (a, b) in ps[1..];
        }
        if a == ps[0].0 {
          assert (a, ps[0].1) in ps;
        }
        if HasKey(ps[1..], a) {
          var b :| (a, b) in ps[1..];
          assert (a, b) in ps;
        }
      }
    }
  }

  /** The map without its keys of empty neighbour sets. */
  function NonEmpty<T>(m: map<T, set<T>>): map<T, set<T>> {
    map k | k in m && m[k] != {} :: m[k]
  }

  /** Reading what was written adds the written pairs to an empty map. */
  lemma ReadOfWrite<T(!new)>(m: map<T, set<T>>, samples: seq<T>, entries: seq<(T, seq<T>)>)
    requires ListsMap(entries, m)
    requires |samples| <= 0x8000_0000
    requires forall x :: x in m ==> x in samples && forall y :: y in m[x] ==> y in samples
    ensures Write(m, samples, entries).Success?
    ensures Read(samples, Write(m, samples, entries).value) == AddAll(map[], Pairs(entries))
  {
    var ps := Pairs(entries);
    var body := Body(samples, ps);
    PairsOfListing(entries, m);
    forall k | 0 <= k < |ps| ensures ps[k].0 in samples && ps[k].1 in samples {
      assert (ps[k].0, ps[k].1) in ps;
    }
    assert Write(m, samples, entries).value == Header + "\n" + body;
    assert '\n' !in Header;
    LinesCons(Header, body);
    ReadBody(samples, ps, map[]);
  }

  /** Adding exactly the neighbour pairs of `m` to an empty map gives `m`
      without its empty neighbour sets. */
  lemma AddAllOfPairs<T(!new)>(m: map<T, set<T>>, ps: seq<(T, T)>)
    requires forall x, y :: (x, y) in ps <==> x in m && y in m[x]
    ensures AddAll(map[], ps) == NonEmpty(m)
  {
    var r, n := AddAll(map[], ps), NonEmpty(m);
    AddAllContents(map[], ps);
    forall a ensures a in r <==> a in n {
      if a in n {
        var y :| y in m[a];
        assert (a, y) in ps;
      }
    }
    forall a | a in r ensures r[a] == n[a] {
      forall b ensures b in r[a] <==> b in n[a] {
      }
    }
  }

  /** Adding the pairs of a listing to an empty map gives the map without
      its empty neighbour sets. */
  lemma AddAllOfListing<T(!new)>(m: map<T, set<T>>, entries: seq<(T, seq<T>)>)
    requires ListsMap(entries, m)
    ensures AddAll(map[], Pairs(entries)) == NonEmpty(m)
  {
    PairsOfListing(entries, m);
    AddAllOfPairs(m, Pairs(entries));
  }

  /** Reading what was written gives the map back, except for keys whose
      neighbour set is empty, which write no line. Every key and neighbour
      must be a sample, since a missing neighbour is printed as `null`,
      and the list must fit Java's `int` positions. */
  lemma RoundTrip<T(!new)>(m: map<T, set<T>>, samples: seq<T>, entries: seq<(T, seq<T>)>)
    requires ListsMap(entries, m)
    requires |samples| <= 0x8000_0000
    requires forall x :: x in m ==> x in samples && forall y :: y in m[x] ==> y in samples
    ensures Write(m, samples, entries).Success?
    ensures Read(samples, Write(m, samples, entries).value) == NonEmpty(m)
  {
    ReadOfWrite(m, samples, entries);
    AddAllOfListing(m, entries);
  }
}

=== FILE: cut_tree.dfy ===
/** The tree cut of Clustering.java: a priority queue ordered by age,
    oldest first, from which the oldest node is repeatedly replaced by its
    children until the queue holds the requested number of nodes. */
module CutTree {
  import opened Results
  import opened Sequences
  import opened Tree

  /** Position of the first node of maximal age in a non-empty queue.
      (The source's heap breaks ties among equal ages in an unspecified
      order; the model takes the earliest queued.) */
  function OldestIndex(a: Arena, q: seq<NodeId>): (i: nat)
    requires |q| > 0 && InArena(a, q)
    ensures i < |q|
    ensures forall k :: 0 <= k < |q| ==> a[q[k]].age <= a[q[i]].age
    ensures forall k :: 0 <= k < i ==> a[q[k]].age < a[q[i]].age
  {
    if |q| == 1 then 0
    else
      var j := OldestIndex(a, q[1..]);
      if a[q[0]].age >= a[q[1 + j]].age then 0 else 1 + j
  }

  /** One iteration of the cut: poll the oldest node and queue its children. */
  function Poll(a: Arena, q: seq<NodeId>): (r: seq<NodeId>)
    requires WellFormed(a) && |q| > 0 && InArena(a, q)
    ensures InArena(a, r)
    ensures exists i :: (0 <= i < |q|
      && (forall k :: 0 <= k < |q| ==> a[q[k]].age <= a[q[i]].age)
      && multiset(r) == multiset(q) - multiset{q[i]} + multiset(a[q[i]].children))
    ensures |r| == |q| - 1 + |a[q[OldestIndex(a, q)]].children|
  {
    var i := OldestIndex(a, q);
    var n := q[i];
    var rest := q[..i] + q[i + 1..];
    RemoveAtMultiset(q, i);
    assert InArena(a, rest);
    var r := rest + a[n].children;
    assert InArena(a, r);
    r
  }

  /** The number of nodes of a node's tree, shared subtrees counted once per
      path; it drops by one on every poll, so the cut terminates. */
  function Size(a: Arena, n: NodeId): (s: nat)
    requires WellFormed(a) && n < |a|
    ensures s >= 1
    decreases n
  {
    if a[n].children == [] then 1
    else 1 + Size(a, a[n].children[0]) + Size(a, a[n].children[1])
  }

  function SizeSum(a: Arena, q: seq<NodeId>): nat
    requires WellFormed(a) && InArena(a, q)
  {
    if q == [] then 0 else Size(a, q[0]) + SizeSum(a, q[1..])
  }

  /** The number of leaves (childless nodes) reachable from a node. */
  function LeafCount(a: Arena, n: NodeId): (c: nat)
    requires WellFormed(a) && n < |a|
    ensures c >= 1
    decreases n
  {
    if a[n].children == [] then 1
    else LeafCount(a, a[n].children[0]) + LeafCount(a, a[n].children[1])
  }

  function LeafSum(a: Arena, q: seq<NodeId>): nat
    requires WellFormed(a) && InArena(a, q)
  {
    if q == [] then 0 else LeafCount(a, q[0]) + LeafSum(a, q[1..])
  }

  /** The observations held by the trees of all queued nodes. */
  function ContentsOf(a: Arena, q: seq<NodeId>): set<Obs>
    requires WellFormed(a) && InArena(a, q)
  {
    if q == [] then {} else Contents(a, q[0]) + ContentsOf(a, q[1..])
  }

  lemma {:induction false} SumsOfConcat(a: Arena, x: seq<NodeId>, y: seq<NodeId>)
    requires WellFormed(a) && InArena(a, x) && InArena(a, y)
    ensures SizeSum(a, x + y) == SizeSum(a, x) + SizeSum(a, y)
    ensures LeafSum(a, x + y) == LeafSum(a, x) + LeafSum(a, y)
    ensures ContentsOf(a, x + y) == ContentsOf(a, x) + ContentsOf(a, y)
  {
    if x == [] {
      assert x + y == y;
    } else {
      assert (x + y)[1..] == x[1..] + y;
      SumsOfConcat(a, x[1..], y);
    }
  }

  /** The sums of a queue split around position `i`. */
  lemma SumsRemoveAt(a: Arena, q: seq<NodeId>, i: nat)
    requires WellFormed(a) && InArena(a, q) && i < |q|
    ensures SizeSum(a, q) == SizeSum(a, q[..i] + q[i + 1..]) + Size(a, q[i])
    ensures LeafSum(a, q) == LeafSum(a, q[..i] + q[i + 1..]) + LeafCount(a, q[i])
    ensures ContentsOf(a, q) == ContentsOf(a, q[..i] + q[i + 1..]) + Contents(a, q[i])
  {
    assert q == q[..i] + ([q[i]] + q[i + 1..]);
    SumsOfConcat(a, q[..i], [q[i]] + q[i + 1..]);
    SumsOfConcat(a, [q[i]], q[i + 1..]);
    SumsOfConcat(a, q[..i], q[i + 1..]);
    assert ContentsOf(a, [q[i]]) == Contents(a, q[i]);
  }

  lemma SumsOfPair(a: Arena, x: NodeId, y: NodeId)
    requires WellFormed(a) && x < |a| && y < |a|
    ensures InArena(a, [x, y])
    ensures SizeSum(a, [x, y]) == Size(a, x) + Size(a, y)
    ensures LeafSum(a, [x, y]) == LeafCount(a, x) + LeafCount(a, y)
    ensures ContentsOf(a, [x, y]) == Contents(a, x) + Contents(a, y)
  {
    assert [x, y][1..] == [y];
    assert [y][1..] == [];
    assert SizeSum(a, [y]) == Size(a, y) + SizeSum(a, []);
    assert LeafSum(a, [y]) == LeafCount(a, y) + LeafSum(a, []);
    assert ContentsOf(a, [y]) == Contents(a, y) + ContentsOf(a, []);
  }

  /** The sums over a node's children. */
  lemma SumsOfChildren(a: Arena, n: NodeId)
    requires WellFormed(a) && n < |a|
    ensures InArena(a, a[n].children)
    ensures SizeSum(a, a[n].children) + 1 == Size(a, n)
    ensures a[n].children != [] ==> LeafSum(a, a[n].children) == LeafCount(a, n)
    ensures a[n].children != [] ==>
      ContentsOf(a, a[n].children) == Contents(a, a[n].children[0]) + Contents(a, a[n].children[1])
  {
    var cs := a[n].children;
    if cs != [] {
      assert cs == [cs[0], cs[1]];
      SumsOfPair(a, cs[0], cs[1]);
    }
  }

  /** How the sums change when the oldest node is replaced by its children. */
  lemma PollSums(a: Arena, q: seq<NodeId>)
    requires WellFormed(a) && |q| > 0 && InArena(a, q)
    ensures var n := q[OldestIndex(a, q)]; var p := Poll(a, q);
      && SizeSum(a, p) + 1 == SizeSum(a, q)
      && (a[n].children != [] ==> LeafSum(a, p) == LeafSum(a, q))
      && (a[n].children == [] ==> LeafSum(a, p) + 1 == LeafSum(a, q))
      && (a[n].age > 0 && a[n].children != [] ==> ContentsOf(a, p) == ContentsOf(a, q))
  {
    var i := OldestIndex(a, q);
    var n := q[i];
    var rest := q[..i] + q[i + 1..];
    assert InArena(a, rest);
    assert Poll(a, q) == rest + a[n].children;
    SumsRemoveAt(a, q, i);
    SumsOfChildren(a, n);
    SumsOfConcat(a, rest, a[n].children);
    if a[n].age > 0 && a[n].children != [] {
      ContentsOfMergeNode(a, n);
    }
  }

  /** The cut loop: poll while fewer than `k` nodes are queued, failing when
      the queue runs empty first. */
  function CutLoop(a: Arena, q: seq<NodeId>, k: int): (r: Result<seq<NodeId>>)
    requires WellFormed(a) && InArena(a, q)
    ensures r.Success? ==> InArena(a, r.value) && |r.value| >= k
    ensures r.Failure? ==> r.error == InsufficientObservations
    decreases SizeSum(a, q)
  {
    if |q| >= k then Success(q)
    else if q == [] then Failure(InsufficientObservations)
    else
      PollSums(a, q);
      CutLoop(a, Poll(a, q), k)
  }

  /** `cutTree(roots, numCluster)`. */
  function Cut(a: Arena, roots: seq<NodeId>, k: int): (r: Result<seq<NodeId>>)
    requires WellFormed(a) && InArena(a, roots)
    ensures |roots| >= k ==> r == Success(roots)
    ensures r.Success? && |roots| < k ==> |r.value| == k
    ensures r.Failure? ==> |roots| < k && r.error == InsufficientObservations
  {
    CutLoopSize(a, roots, k);
    CutLoop(a, roots, k)
  }

  /** Each poll grows the queue by at most one, so a loop that starts below
      `k` stops at exactly `k`. */
  lemma {:induction false} CutLoopSize(a: Arena, q: seq<NodeId>, k: int)
    requires WellFormed(a) && InArena(a, q)
    ensures |q| <= k && CutLoop(a, q, k).Success? ==> |CutLoop(a, q, k).value| == k
    decreases SizeSum(a, q)
  {
    if |q| < k && q != [] {
      PollSums(a, q);
      CutLoopSize(a, Poll(a, q), k);
    }
  }

  lemma {:induction false} LeafSumAtLeastLength(a: Arena, q: seq<NodeId>)
    requires WellFormed(a) && InArena(a, q)
    ensures LeafSum(a, q) >= |q|
  {
    if q != [] {
      LeafSumAtLeastLength(a, q[1..]);
    }
  }

  lemma {:induction false} LeafSumOfLeaves(a: Arena, q: seq<NodeId>)
    requires WellFormed(a) && InArena(a, q)
    requires forall k :: 0 <= k < |q| ==> a[q[k]].children == []
    ensures LeafSum(a, q) == |q|
  {
    if q != [] {
      LeafSumOfLeaves(a, q[1..]);
    }
  }

  /** In a layered arena the cut fails exactly when `k` exceeds both the
      number of roots and the number of leaves below them. */
  lemma {:induction false} CutLoopFailsIff(a: Arena, q: seq<NodeId>, k: int)
    requires Layered(a) && InArena(a, q)
    ensures CutLoop(a, q, k).Failure? <==> |q| < k && LeafSum(a, q) < k
    decreases SizeSum(a, q)
  {
    LeafSumAtLeastLength(a, q);
    if |q| < k && q != [] {
      var i := OldestIndex(a, q);
      var p := Poll(a, q);
      PollSums(a, q);
      CutLoopFailsIff(a, p, k);
      LeafSumAtLeastLength(a, p);
      if a[q[i]].age == 0 {
        assert forall j :: 0 <= j < |q| ==> a[q[j]].children == [];
        LeafSumOfLeaves(a, q);
      }
    }
  }

  /** The cut succeeds exactly when enough roots or leaves are available. */
  lemma CutFailsIff(a: Arena, roots: seq<NodeId>, k: int)
    requires Layered(a) && InArena(a, roots)
    ensures Cut(a, roots, k).Failure? <==> |roots| < k && LeafSum(a, roots) < k
  {
    CutLoopFailsIff(a, roots, k);
  }

  /** A successful cut in a layered arena only ever expands merge nodes,
      so it keeps the observations covered by the queue. */
  lemma {:induction false} CutLoopKeepsContents(a: Arena, q: seq<NodeId>, k: int)
    requires Layered(a) && InArena(a, q)
    requires CutLoop(a, q, k).Success?
    ensures ContentsOf(a, CutLoop(a, q, k).value) == ContentsOf(a, q)
    decreases SizeSum(a, q)
  {
    if |q| < k && q != [] {
      var i := OldestIndex(a, q);
      PollSums(a, q);
      CutLoopFailsIff(a, q, k);
      if a[q[i]].age == 0 {
        assert forall j :: 0 <= j < |q| ==> a[q[j]].children == [];
        LeafSumOfLeaves(a, q);
        assert false;
      }
      CutLoopKeepsContents(a, Poll(a, q), k);
    }
  }

  /** On success the clusters of the cut cover exactly the roots' observations. */
  lemma CutKeepsContents(a: Arena, roots: seq<NodeId>, k: int)
    requires Layered(a) && InArena(a, roots)
    requires Cut(a, roots, k).Success?
    ensures ContentsOf(a, Cut(a, roots, k).value) == ContentsOf(a, roots)
  {
    CutLoopKeepsContents(a, roots, k);
  }

  /** A child holds no observation its parent does not. */
  lemma ChildContentsWithin(a: Arena, n: NodeId, k: nat)
    requires WellFormed(a) && n < |a| && k < |a[n].children|
    ensures a[n].children[k] < |a| && Contents(a, a[n].children[k]) <= Contents(a, n)
  {
    ContentsUnfold(a, n);
  }

  /** Dropping one entry keeps a queue disjoint. */
  lemma RemoveAtKeepsDisjoint(a: Arena, q: seq<NodeId>, i: nat)
    requires WellFormed(a) && InArena(a, q) && i < |q| && PairwiseDisjoint(a, q)
    ensures InArena(a, q[..i] + q[i + 1..]) && PairwiseDisjoint(a, q[..i] + q[i + 1..])
  {
    var rest := q[..i] + q[i + 1..];
    assert forall x :: 0 <= x < |rest| ==> rest[x] == q[if x < i then x else x + 1];
  }

  /** Two disjoint queues, no entry of one sharing observations with an
      entry of the other, concatenate to a disjoint queue. */
  lemma ConcatKeepsDisjoint(a: Arena, x: seq<NodeId>, y: seq<NodeId>)
    requires WellFormed(a) && InArena(a, x) && InArena(a, y)
    requires PairwiseDisjoint(a, x) && PairwiseDisjoint(a, y)
    requires forall k, l :: 0 <= k < |x| && 0 <= l < |y| ==> Contents(a, x[k]) !! Contents(a, y[l])
    ensures InArena(a, x + y) && PairwiseDisjoint(a, x + y)
  {
    var z := x + y;
    forall k, l | 0 <= k < |z| && 0 <= l < |z| && k != l
      ensures Contents(a, z[k]) !! Contents(a, z[l])
    {
      if k < |x| && l >= |x| {
        assert z[k] == x[k] && z[l] == y[l - |x|];
      } else if k >= |x| && l < |x| {
        assert z[l] == x[l] && z[k] == y[k - |x|];
      }
    }
  }

  /** The children of a merge node form a disjoint queue inside the node. */
  lemma ChildrenQueueDisjoint(a: Arena, n: NodeId)
    requires WellFormed(a) && ChildrenDisjoint(a) && n < |a|
    ensures InArena(a, a[n].children) && PairwiseDisjoint(a, a[n].children)
    ensures forall k :: 0 <= k < |a[n].children| ==> Contents(a, a[n].children[k]) <= Contents(a, n)
  {
    var cs := a[n].children;
    forall k | 0 <= k < |cs|
      ensures Contents(a, cs[k]) <= Contents(a, n)
    {
      ChildContentsWithin(a, n, k);
    }
    if cs != [] {
      assert Contents(a, cs[0]) !! Contents(a, cs[1]);
      forall k, l | 0 <= k < |cs| && 0 <= l < |cs| && k != l
        ensures Contents(a, cs[k]) !! Contents(a, cs[l])
      {
        assert {k, l} == {0, 1};
      }
    }
  }

  /** Replacing a node by its disjoint children keeps the queue disjoint. */
  lemma PollKeepsDisjoint(a: Arena, q: seq<NodeId>)
    requires WellFormed(a) && ChildrenDisjoint(a) && |q| > 0 && InArena(a, q)
    requires PairwiseDisjoint(a, q)
    ensures PairwiseDisjoint(a, Poll(a, q))
  {
    var i := OldestIndex(a, q);
    var n := q[i];
    var rest := q[..i] + q[i + 1..];
    var cs := a[n].children;
    assert Poll(a, q) == rest + cs;
    RemoveAtKeepsDisjoint(a, q, i);
    ChildrenQueueDisjoint(a, n);
    forall k, l | 0 <= k < |rest| && 0 <= l < |cs|
      ensures Contents(a, rest[k]) !! Contents(a, cs[l])
    {
      var k' := if k < i then k else k + 1;
      assert rest[k] == q[k'] && k' != i;
    }
    ConcatKeepsDisjoint(a, rest, cs);
  }

  /** The cut loop keeps a disjoint queue disjoint. */
  lemma {:induction false} CutLoopKeepsDisjoint(a: Arena, q: seq<NodeId>, k: int)
    requires WellFormed(a) && ChildrenDisjoint(a) && InArena(a, q)
    requires PairwiseDisjoint(a, q)
    ensures CutLoop(a, q, k).Success? ==> PairwiseDisjoint(a, CutLoop(a, q, k).value)
    decreases SizeSum(a, q)
  {
    if |q| < k && q != [] {
      PollSums(a, q);
      PollKeepsDisjoint(a, q);
      CutLoopKeepsDisjoint(a, Poll(a, q), k);
    }
  }

  /** Over disjoint roots in a tree whose merges join disjoint halves, the
      clusters of a successful cut are pairwise disjoint. */
  lemma CutKeepsDisjoint(a: Arena, roots: seq<NodeId>, k: int)
    requires WellFormed(a) && ChildrenDisjoint(a) && InArena(a, roots)
    requires PairwiseDisjoint(a, roots)
    ensures Cut(a, roots, k).Success? ==> PairwiseDisjoint(a, Cut(a, roots, k).value)
  {
    CutLoopKeepsDisjoint(a, roots, k);
  }

  /** The queue's observations are the union of its nodes' observations. */
  lemma {:induction false} ContentsOfIsUnion(a: Arena, q: seq<NodeId>)
    requires WellFormed(a) && InArena(a, q)
    ensures forall o :: o in ContentsOf(a, q) <==> exists x :: 0 <= x < |q| && o in Contents(a, q[x])
  {
    if q != [] {
      ContentsOfIsUnion(a, q[1..]);
      forall o | o in ContentsOf(a, q)
        ensures exists x :: 0 <= x < |q| && o in Contents(a, q[x])
      {
        if o !in Contents(a, q[0]) {
          assert o in ContentsOf(a, q[1..]);
          var x :| 0 <= x < |q[1..]| && o in Contents(a, q[1..][x]);
          assert o in Contents(a, q[x + 1]);
        }
      }
      forall o, x | 0 <= x < |q| && o in Contents(a, q[x])
        ensures o in ContentsOf(a, q)
      {
        if x > 0 {
          assert q[1..][x - 1] == q[x];
        }
      }
    }
  }

  /** `treeToCluster(cutTree(roots, k))` on success: one cluster per cut
      node, which together hold exactly the roots' observations. */
  lemma CutClusters(a: Arena, roots: seq<NodeId>, k: int)
    requires Layered(a) && InArena(a, roots)
    requires Cut(a, roots, k).Success?
    ensures var cs := TreeToCluster(a, Cut(a, roots, k).value);
      && |cs| == |Cut(a, roots, k).value|
      && forall o :: (exists x :: 0 <= x < |cs| && o in cs[x]) <==> o in ContentsOf(a, roots)
  {
    var cut := Cut(a, roots, k).value;
    CutKeepsContents(a, roots, k);
    ContentsOfIsUnion(a, cut);
  }
}

=== FILE: data_utils.dfy ===
/** The numeric helpers of DataUtils.java: attribute selection, the mean of
    a cluster, its sum of squared distances to the mean and the total over
    a clustering. Doubles are modelled as reals; a cluster is a sequence of
    vectors in the iteration order of the source's collection. */
module DataUtils {
  import opened Results
  import opened Sequences

  type Vector = seq<real>

  /** `strip`: the attributes of `d` at the positions `fa`, in that order.
      A position outside the vector is the source's out-of-bounds error. */
  function Strip(d: Vector, fa: seq<int>): (r: Result<Vector>)
    ensures r.Success? <==> forall j :: 0 <= j < |fa| ==> 0 <= fa[j] < |d|
    ensures r.Failure? ==> r.error == InvalidInput
    ensures r.Success? ==> |r.value| == |fa| && forall j :: 0 <= j < |fa| ==> r.value[j] == d[fa[j]]
  {
    if exists j :: 0 <= j < |fa| && !(0 <= fa[j] < |d|) then Failure(InvalidInput)
    else Success(seq(|fa|, j requires 0 <= j < |fa| => d[fa[j]]))
  }

  /** Selecting `fb` from a selection `fa` is one selection by the composed
      positions. */
  lemma StripCompose(d: Vector, fa: seq<int>, fb: seq<int>)
    requires Strip(d, fa).Success? && Strip(Strip(d, fa).value, fb).Success?
    ensures var composed := seq(|fb|, j requires 0 <= j < |fb| => fa[fb[j]]);
      Strip(d, composed) == Strip(Strip(d, fa).value, fb)
  {
    var composed := seq(|fb|, j requires 0 <= j < |fb| => fa[fb[j]]);
    var inner := Strip(d, fa).value;
    assert forall j :: 0 <= j < |fb| ==> 0 <= composed[j] < |d|;
    assert Strip(d, composed).value == Strip(inner, fb).value;
  }

  /** Selecting every position in order gives the vector back. */
  lemma StripIdentity(d: Vector)
    ensures Strip(d, seq(|d|, i => i)) == Success(d)
  {
    assert Strip(d, seq(|d|, i => i)).value == d;
  }

  /** Every vector of the cluster has at least `n` attributes. */
  predicate AllAtLeast(c: seq<Vector>, n: nat) {
    forall k :: 0 <= k < |c| ==> |c[k]| >= n
  }

  /** The sum of attribute `i` over the cluster. */
  function ColumnSum(c: seq<Vector>, i: nat): real
    requires AllAtLeast(c, i + 1)
  {
    if c == [] then 0.0 else ColumnSum(c[..|c| - 1], i) + c[|c| - 1][i]
  }

  /** `getMean`: the attribute-wise mean, with as many attributes as the
      first vector. An empty cluster has no first vector, and a shorter
      vector later on is read out of bounds; both are errors. */
  function Mean(c: seq<Vector>): (r: Result<Vector>)
    ensures r.Success? <==> c != [] && AllAtLeast(c, |c[0]|)
    ensures r.Failure? ==> r.error == InvalidInput
    ensures r.Success? ==> |r.value| == |c[0]|
    ensures r.Success? ==> forall i :: 0 <= i < |r.value| ==> r.value[i] * (|c| as real) == ColumnSum(c, i)
  {
    if c == [] || !AllAtLeast(c, |c[0]|) then Failure(InvalidInput)
    else Success(seq(|c[0]|, i requires 0 <= i < |c[0]| => ColumnSum(c, i) / (|c| as real)))
  }

  /** The sum of the deviations of attribute `i` from a value `m`. */
  function Deviation(c: seq<Vector>, i: nat, m: real): real
    requires AllAtLeast(c, i + 1)
  {
    if c == [] then 0.0 else Deviation(c[..|c| - 1], i, m) + (c[|c| - 1][i] - m)
  }

  lemma {:induction false} DeviationIsSumMinusCount(c: seq<Vector>, i: nat, m: real)
    requires AllAtLeast(c, i + 1)
    ensures Deviation(c, i, m) == ColumnSum(c, i) - (|c| as real) * m
  {
    if c != [] {
      DeviationIsSumMinusCount(c[..|c| - 1], i, m);
    }
  }

  /** The deviations from the mean cancel out, attribute by attribute. */
  lemma MeanDeviationsCancel(c: seq<Vector>)
    requires Mean(c).Success?
    ensures forall i :: 0 <= i < |c[0]| ==> Deviation(c, i, Mean(c).value[i]) == 0.0
  {
    forall i | 0 <= i < |c[0]| ensures Deviation(c, i, Mean(c).value[i]) == 0.0 {
      DeviationIsSumMinusCount(c, i, Mean(c).value[i]);
    }
  }

  lemma {:induction false} ColumnSumOfConstant(c: seq<Vector>, v: Vector, i: nat)
    requires forall k :: 0 <= k < |c| ==> c[k] == v
    requires i < |v|
    ensures ColumnSum(c, i) == (|c| as real) * v[i]
  {
    if c != [] {
      ColumnSumOfConstant(c[..|c| - 1], v, i);
    }
  }

  /** The mean of copies of one vector is that vector. */
  lemma MeanOfConstant(c: seq<Vector>, v: Vector)
    requires c != [] && forall k :: 0 <= k < |c| ==> c[k] == v
    ensures Mean(c) == Success(v)
  {
    assert AllAtLeast(c, |c[0]|);
    var n := |c| as real;
    forall i | 0 <= i < |v| ensures Mean(c).value[i] == v[i] {
      ColumnSumOfConstant(c, v, i);
      assert Mean(c).value[i] == ColumnSum(c, i) / n;
    }
    assert Mean(c).value == v;
  }

  /** The squared distances of the vectors to a centre, summed. */
  function SquaredDistances(centre: Vector, c: seq<Vector>, dist: (Vector, Vector) -> real): (s: real)
    ensures s >= 0.0
  {
    if c == [] then 0.0
    else
      var di := dist(centre, c[|c| - 1]);
      SquaredDistances(centre, c[..|c| - 1], dist) + di * di
  }

  /** `getSumOfSquares`: 0 for an empty cluster, otherwise the squared
      distances to the mean, summed. */
  function SumOfSquares(c: seq<Vector>, dist: (Vector, Vector) -> real): (r: Result<real>)
    ensures c == [] ==> r == Success(0.0)
    ensures r.Success? <==> c == [] || Mean(c).Success?
    ensures r.Failure? ==> r.error == InvalidInput
    ensures r.Success? ==> r.value >= 0.0
    ensures r.Success? && c != [] ==>
      r.value == SumOf(c, v => dist(Mean(c).value, v) * dist(Mean(c).value, v))
  {
    if c == [] then Success(0.0)
    else
      match Mean(c)
      case Failure(e) => Failure(e)
      case Success(m) =>
        SquaredDistancesIsSumOf(m, c, dist);
        Success(SquaredDistances(m, c, dist))
  }

  lemma {:induction false} SquaredDistancesOfCentre(v: Vector, c: seq<Vector>, dist: (Vector, Vector) -> real)
    requires dist(v, v) == 0.0 && forall k :: 0 <= k < |c| ==> c[k] == v
    ensures SquaredDistances(v, c, dist) == 0.0
  {
    if c != [] {
      SquaredDistancesOfCentre(v, c[..|c| - 1], dist);
    }
  }

  /** A cluster of copies of one vector has no spread when the distance of
      a vector to itself is 0. */
  lemma SumOfSquaresOfConstant(c: seq<Vector>, v: Vector, dist: (Vector, Vector) -> real)
    requires dist(v, v) == 0.0 && forall k :: 0 <= k < |c| ==> c[k] == v
    ensures SumOfSquares(c, dist) == Success(0.0)
  {
    if c != [] {
      MeanOfConstant(c, v);
      SquaredDistancesOfCentre(v, c, dist);
    }
  }

  // ---------------------------------------------------------------------
  // Independence of the iteration order

  /** `f` summed over the sequence, last element added last. */
  function SumOf<T>(c: seq<T>, f: T -> real): real {
    if c == [] then 0.0 else SumOf(c[..|c| - 1], f) + f(c[|c| - 1])
  }

  lemma {:induction false} SumOfConcat<T>(x: seq<T>, y: seq<T>, f: T -> real)
    ensures SumOf(x + y, f) == SumOf(x, f) + SumOf(y, f)
    decreases |y|
  {
    if y == [] {
      assert x + y == x;
    } else {
      var z := x + y;
      assert z[..|z| - 1] == x + y[..|y| - 1];
      assert z[|z| - 1] == y[|y| - 1];
      SumOfConcat(x, y[..|y| - 1], f);
    }
  }

  lemma SumOfRemoveAt<T>(s: seq<T>, k: nat, f: T -> real)
    requires k < |s|
    ensures SumOf(s, f) == SumOf(s[..k] + s[k + 1..], f) + f(s[k])
  {
    var a, x, b := s[..k], s[k], s[k + 1..];
    assert s == (a + [x]) + b;
    SumOfConcat(a + [x], b, f);
    assert (a + [x])[..|a + [x]| - 1] == a;
    SumOfConcat(a, b, f);
  }

  /** A sum does not depend on the order of its terms. */
  lemma {:induction false} SumOfPermutation<T>(c: seq<T>, d: seq<T>, f: T -> real)
    requires multiset(c) == multiset(d)
    ensures SumOf(c, f) == SumOf(d, f)
    decreases |c|
  {
    if c == [] {
      assert |d| == |multiset(d)| == 0;
    } else {
      var x, c' := c[|c| - 1], c[..|c| - 1];
      assert x in multiset(d);
      var k :| 0 <= k < |d| && d[k] == x;
      var d' := d[..k] + d[k + 1..];
      RemoveAtMultiset(c, |c| - 1);
      assert c' + c[|c|..] == c';
      RemoveAtMultiset(d, k);
      SumOfRemoveAt(d, k, f);
      SumOfPermutation(c', d', f);
    }
  }

  /** Attribute `i` of a vector, 0 where it has none. */
  function Attribute(i: nat): Vector -> real {
    v => if i < |v| then v[i] else 0.0
  }

  lemma {:induction false} ColumnSumIsSumOf(c: seq<Vector>, i: nat)
    requires AllAtLeast(c, i + 1)
    ensures ColumnSum(c, i) == SumOf(c, Attribute(i))
  {
    if c != [] {
      ColumnSumIsSumOf(c[..|c| - 1], i);
    }
  }

  lemma {:induction false} SquaredDistancesIsSumOf(centre: Vector, c: seq<Vector>, dist: (Vector, Vector) -> real)
    ensures SquaredDistances(centre, c, dist) == SumOf(c, v => dist(centre, v) * dist(centre, v))
  {
    if c != [] {
      SquaredDistancesIsSumOf(centre, c[..|c| - 1], dist);
    }
  }

  /** All vectors of the cluster have the same number of attributes. */
  predicate SameLength(c: seq<Vector>) {
    forall k, l :: 0 <= k < |c| && 0 <= l < |c| ==> |c[k]| == |c[l]|
  }

  /** A permutation of a cluster of equally long vectors has the same
      first length and is as long throughout. */
  lemma PermutedLengths(c: seq<Vector>, d: seq<Vector>)
    requires multiset(c) == multiset(d) && c != [] && SameLength(c)
    ensures d != [] && |d[0]| == |c[0]| && SameLength(d)
  {
    assert |d| == |multiset(d)| == |multiset(c)| == |c|;
    forall k | 0 <= k < |d| ensures |d[k]| == |c[0]| {
      assert d[k] in multiset(c);
    }
  }

  /** The mean of a cluster of equally long vectors does not depend on
      the iteration order. */
  lemma MeanIsOrderFree(c: seq<Vector>, d: seq<Vector>)
    requires multiset(c) == multiset(d) && SameLength(c)
    ensures Mean(c) == Mean(d)
  {
    if c == [] {
      assert |d| == |multiset(d)| == 0;
    } else {
      PermutedLengths(c, d);
      assert |d| == |multiset(d)| == |multiset(c)| == |c|;
      forall i | 0 <= i < |c[0]| ensures ColumnSum(c, i) == ColumnSum(d, i) {
        ColumnSumIsSumOf(c, i);
        ColumnSumIsSumOf(d, i);
        SumOfPermutation(c, d, Attribute(i));
      }
      assert Mean(c).value == Mean(d).value;
    }
  }

  /** The sum of squares of a cluster of equally long vectors does not
      depend on the iteration order. */
  lemma SumOfSquaresIsOrderFree(c: seq<Vector>, d: seq<Vector>, dist: (Vector, Vector) -> real)
    requires multiset(c) == multiset(d) && SameLength(c)
    ensures SumOfSquares(c, dist) == SumOfSquares(d, dist)
  {
    MeanIsOrderFree(c, d);
    if c != [] {
      assert |d| == |multiset(d)| == |multiset(c)| == |c|;
      var m := Mean(c).value;
      SquaredDistancesIsSumOf(m, c, dist);
      SquaredDistancesIsSumOf(m, d, dist);
      SumOfPermutation(c, d, v => dist(m, v) * dist(m, v));
    }
  }

  /** `getWithinSumOfSquares`: the sums of squares of the clusters, added up. */
  function WithinSumOfSquares(cs: seq<seq<Vector>>, dist: (Vector, Vector) -> real): (r: Result<real>)
    ensures r.Success? <==> forall k :: 0 <= k < |cs| ==> SumOfSquares(cs[k], dist).Success?
    ensures r.Failure? ==> r.error == InvalidInput
    ensures r.Success? ==> r.value >= 0.0
  {
    if cs == [] then Success(0.0)
    else
      match WithinSumOfSquares(cs[..|cs| - 1], dist)
      case Failure(e) => Failure(e)
      case Success(w) =>
        match SumOfSquares(cs[|cs| - 1], dist)
        case Failure(e) => Failure(e)
        case Success(s) => Success(w + s)
  }

  /** A successful total is the total of all clusters but the last plus
      the last one's sum of squares. */
  lemma WithinSumOfSquaresLast(cs: seq<seq<Vector>>, dist: (Vector, Vector) -> real)
    requires cs != [] && WithinSumOfSquares(cs, dist).Success?
    ensures WithinSumOfSquares(cs[..|cs| - 1], dist).Success?
    ensures SumOfSquares(cs[|cs| - 1], dist).Success?
    ensures WithinSumOfSquares(cs, dist).value
      == WithinSumOfSquares(cs[..|cs| - 1], dist).value + SumOfSquares(cs[|cs| - 1], dist).value
  {
  }

  /** The total over a clustering is the sum of the totals of its parts. */
  lemma {:induction false} WithinSumOfSquaresSplits(xs: seq<seq<Vector>>, ys: seq<seq<Vector>>, dist: (Vector, Vector) -> real)
    requires WithinSumOfSquares(xs, dist).Success? && WithinSumOfSquares(ys, dist).Success?
    ensures WithinSumOfSquares(xs + ys, dist)
      == Success(WithinSumOfSquares(xs, dist).value + WithinSumOfSquares(ys, dist).value)
    decreases |ys|
  {
    if ys == [] {
      assert xs + ys == xs;
    } else {
      var zs, ys' := xs + ys, ys[..|ys| - 1];
      assert zs[..|zs| - 1] == xs + ys';
      assert zs[|zs| - 1] == ys[|ys| - 1];
      WithinSumOfSquaresLast(ys, dist);
      WithinSumOfSquaresSplits(xs, ys', dist);
    }
  }

  /** A clustering of one cluster totals that cluster's sum of squares. */
  lemma WithinSumOfSquaresSingle(c: seq<Vector>, dist: (Vector, Vector) -> real)
    ensures WithinSumOfSquares([c], dist) == SumOfSquares(c, dist)
  {
    assert [c][..0] == [];
  }
}

=== FILE: engine.dfy ===
/** The agglomerative merge engine shared by `getHierarchicalClusterTree`
    (Clustering.java) and `getFunctionalClusterinTree` (RegioClust.java).
    A round snapshots the active layer, lets each worker find the cheapest
    admissible pair among its rows, reduces the worker results in worker
    order, and merges the winning pair into a fresh tree node. The thread
    pool only parallelises this deterministic computation, so the model runs
    the workers one after the other. */
module Engine {
  import opened Results
  import opened Tree
  import opened Adjacency

  /** How the merge cost of two active regions is obtained. */
  datatype CostModel =
    | Linkage(link: (set<Obs>, set<Obs>) -> real)
      // single, complete or average linkage: a cost computed from the two regions
    | Spread(spread: set<Obs> -> real)
      // Ward's sum of squares or a regression's residual sum of squares:
      // spread(A + B) - (spread(A) + spread(B)), the two terms read from a cache

  /** The settings of one engine run. `constrained` says whether an adjacency
      map is in effect; `minSize` is the size floor of the admission rule
      (absent in the regression phase); `workers` is the thread count. */
  datatype Params = Params(model: CostModel, constrained: bool, minSize: Option<int>, workers: int)

  /** The engine state between rounds. */
  datatype State = State(
    arena: Arena,                       // every node created so far
    layer: seq<NodeId>,                 // the active layer, in snapshot order
    content: map<NodeId, set<Obs>>,     // observations of each active node
    nodeCost: map<NodeId, real>,        // cached spread of each active node
    memo: map<(NodeId, NodeId), real>,  // memoised spread of the union of a pair
    adj: map<NodeId, set<NodeId>>,      // the adjacency map
    age: nat)                           // age of the newest node

  /** A pair of layer positions `i < j` and its merge cost. */
  datatype Candidate = Candidate(i: nat, j: nat, cost: real)

  predicate Distinct(s: seq<NodeId>) {
    forall a, b :: 0 <= a < b < |s| ==> s[a] != s[b]
  }

  function Region(st: State, x: NodeId): set<Obs> {
    if x in st.content then st.content[x] else {}
  }

  function Cached(st: State, x: NodeId): real {
    if x in st.nodeCost then st.nodeCost[x] else 0.0
  }

  /** The layer lists distinct nodes of a well-formed arena. */
  ghost predicate LayerOk(st: State) {
    && WellFormed(st.arena)
    && Distinct(st.layer)
    && (forall k :: 0 <= k < |st.layer| ==> st.layer[k] < |st.arena|)
  }

  /** The adjacency map only mentions existing nodes. */
  ghost predicate AdjOk(st: State) {
    forall x :: x in st.adj ==> x < |st.arena| && forall y :: y in st.adj[x] ==> y < |st.arena|
  }

  /** Each active node maps to its contents in the tree, and no active node
      is older than the state's age. */
  ghost predicate ContentOk(st: State)
    requires LayerOk(st)
  {
    && (forall x :: x in st.content <==> x in st.layer)
    && (forall x :: x in st.content ==> x < |st.arena| && st.content[x] == Contents(st.arena, x))
    && (forall x :: x in st.content ==> st.arena[x].age <= st.age)
  }

  /** Each active node caches the spread of its own region. */
  ghost predicate NodeCostSound(f: set<Obs> -> real, st: State) {
    forall x :: x in st.content ==> x in st.nodeCost && st.nodeCost[x] == f(st.content[x])
  }

  /** Every entry of `memo` names two existing nodes and, while both are
      active, holds the spread of their union. */
  ghost predicate MemoSound(f: set<Obs> -> real, st: State, memo: map<(NodeId, NodeId), real>) {
    forall pr :: pr in memo ==>
      && pr.0 < |st.arena| && pr.1 < |st.arena|
      && (pr.0 in st.content && pr.1 in st.content ==> memo[pr] == f(st.content[pr.0] + st.content[pr.1]))
  }

  /** Under a spread cost, the node cache and the memo are sound. */
  ghost predicate CacheOk(p: Params, st: State) {
    p.model.Spread? ==> NodeCostSound(p.model.spread, st) && MemoSound(p.model.spread, st, st.memo)
  }

  /** The invariant every engine state keeps. */
  ghost predicate Inv(p: Params, st: State) {
    LayerOk(st) && AdjOk(st) && ContentOk(st) && CacheOk(p, st)
  }

  /** The admission rule: `i < j`, `j` is a registered neighbour of `i` when
      an adjacency map is in effect, and not both regions have reached the
      size floor. */
  predicate Admissible(p: Params, st: State, i: nat, j: nat) {
    && i < j < |st.layer|
    && (p.constrained ==> st.layer[i] in st.adj && st.layer[j] in st.adj[st.layer[i]])
    && (p.minSize.Some? ==>
          !(|Region(st, st.layer[i])| >= p.minSize.value && |Region(st, st.layer[j])| >= p.minSize.value))
  }

  /** The spread of the union of two active nodes, read from the memo when
      present and computed otherwise. */
  function UnionValue(f: set<Obs> -> real, st: State, x: NodeId, y: NodeId): real {
    if (x, y) in st.memo then st.memo[(x, y)] else f(Region(st, x) + Region(st, y))
  }

  function PairCost(p: Params, st: State, i: nat, j: nat): real
    requires i < |st.layer| && j < |st.layer|
  {
    var x, y := st.layer[i], st.layer[j];
    match p.model
    case Linkage(link) => link(Region(st, x), Region(st, y))
    case Spread(f) => UnionValue(f, st, x, y) - (Cached(st, x) + Cached(st, y))
  }

  /** Under the invariant a memo hit equals a fresh computation. */
  lemma UnionValueIsSpread(p: Params, st: State, i: nat, j: nat)
    requires Inv(p, st) && p.model.Spread? && i < |st.layer| && j < |st.layer|
    ensures PairCost(p, st, i, j)
      == p.model.spread(st.content[st.layer[i]] + st.content[st.layer[j]])
         - (p.model.spread(st.content[st.layer[i]]) + p.model.spread(st.content[st.layer[j]]))
  {
    var x, y := st.layer[i], st.layer[j];
    if (x, y) in st.memo {
      assert st.memo[(x, y)] == p.model.spread(st.content[x] + st.content[y]);
    }
  }

  // ---------------------------------------------------------------------
  // The nearest-pair search

  /** `(i, j)` comes before `(i2, j2)` in row-major order. */
  predicate LexBefore(i: nat, j: nat, i2: nat, j2: nat) {
    i < i2 || (i == i2 && j < j2)
  }

  /** `(i, j)` comes before `(i2, j2)` in the order in which the search
      prefers equal-cost pairs: lower worker first, then row-major. */
  predicate RankBefore(w: nat, i: nat, j: nat, i2: nat, j2: nat)
    requires w > 0
  {
    i % w < i2 % w || (i % w == i2 % w && LexBefore(i, j, i2, j2))
  }

  /** Pair `(x, y)` lies in worker `t`'s rows before position `(ri, rj)`. */
  predicate InScope(w: nat, t: nat, ri: nat, rj: nat, x: nat, y: nat)
    requires w > 0
  {
    x % w == t && LexBefore(x, y, ri, rj)
  }

  /** `best` is worker `t`'s result for the pairs of its rows scanned before
      position `(ri, rj)`: none if none of them is admissible, otherwise an
      admissible one of least cost, the first such in scan order. */
  ghost predicate WorkerBestSoFar(p: Params, st: State, t: nat, best: Option<Candidate>, ri: nat, rj: nat)
    requires p.workers > 0
  {
    && (best.None? ==>
          forall i: nat, j: nat :: InScope(p.workers, t, ri, rj, i, j) ==> !Admissible(p, st, i, j))
    && (best.Some? ==>
          && Admissible(p, st, best.value.i, best.value.j)
          && InScope(p.workers, t, ri, rj, best.value.i, best.value.j)
          && best.value.cost == PairCost(p, st, best.value.i, best.value.j)
          && forall i: nat, j: nat :: InScope(p.workers, t, ri, rj, i, j) && Admissible(p, st, i, j) ==>
               && best.value.cost <= PairCost(p, st, i, j)
               && (best.value.cost == PairCost(p, st, i, j) ==> !LexBefore(i, j, best.value.i, best.value.j)))
  }

  /** A worker's result stays valid for a scope with no further admissible pair. */
  lemma WidenScope(p: Params, st: State, t: nat, best: Option<Candidate>, ri: nat, rj: nat, ri2: nat, rj2: nat)
    requires p.workers > 0
    requires WorkerBestSoFar(p, st, t, best, ri, rj)
    requires forall x: nat, y: nat :: InScope(p.workers, t, ri2, rj2, x, y) && Admissible(p, st, x, y) ==>
               InScope(p.workers, t, ri, rj, x, y)
    requires best.Some? ==> InScope(p.workers, t, ri2, rj2, best.value.i, best.value.j)
    ensures WorkerBestSoFar(p, st, t, best, ri2, rj2)
  {
  }

  lemma ModUnique(a: int, w: int, q: int, r: int)
    requires w > 0 && 0 <= r < w && a == q * w + r
    ensures a % w == r
  {
    var q', r' := a / w, a % w;
    assert a == q' * w + r';
    assert (q - q') * w == r' - r;
    MultipleAtLeast(q - q', w);
    MultipleAtLeast(q' - q, w);
  }

  lemma ModShift(i: nat, w: nat)
    requires w > 0
    ensures (i + w) % w == i % w
  {
    var q := i / w;
    assert i + w == (q + 1) * w + i % w;
    ModUnique(i + w, w, q + 1, i % w);
  }

  lemma MultipleAtLeast(d: int, w: nat)
    ensures d >= 1 ==> d * w >= w
    ensures d <= 0 ==> d * w <= 0
  {
  }

  lemma DistributeSub(a: int, b: int, w: int)
    ensures a * w - b * w == (a - b) * w
  {
  }

  /** Two rows of one worker are a whole number of strides apart. */
  lemma SliceStep(w: nat, t: nat, i: nat, x: nat)
    requires w > 0 && i % w == t && x % w == t
    ensures x < i + w ==> x <= i
  {
    var qi, qx := i / w, x / w;
    assert i == qi * w + t;
    assert x == qx * w + t;
    DistributeSub(qx, qi, w);
    MultipleAtLeast(qx - qi, w);
  }

  /** Scanning pair `(i, j)` without taking it keeps the worker's result. */
  lemma ScanSkip(p: Params, st: State, t: nat, i: nat, j: nat, best: Option<Candidate>)
    requires p.workers > 0 && i % p.workers == t
    requires WorkerBestSoFar(p, st, t, best, i, j)
    requires Admissible(p, st, i, j) ==> best.Some? && best.value.cost <= PairCost(p, st, i, j)
    ensures WorkerBestSoFar(p, st, t, best, i, j + 1)
  {
  }

  /** Taking a strictly cheaper pair `(i, j)` makes it the worker's result. */
  lemma ScanTake(p: Params, st: State, t: nat, i: nat, j: nat, best: Option<Candidate>)
    requires p.workers > 0 && i % p.workers == t
    requires WorkerBestSoFar(p, st, t, best, i, j)
    requires Admissible(p, st, i, j) && (best.None? || PairCost(p, st, i, j) < best.value.cost)
    ensures WorkerBestSoFar(p, st, t, Some(Candidate(i, j, PairCost(p, st, i, j))), i, j + 1)
  {
  }

  /** The rest of row `i` from column `j` on, scanned left to right; a pair
      replaces the best so far only when strictly cheaper. */
  function RowScan(p: Params, st: State, i: nat, j: nat, best: Option<Candidate>): Option<Candidate>
    decreases |st.layer| - j
  {
    if j >= |st.layer| then best
    else
      var take := Admissible(p, st, i, j) && (best.None? || PairCost(p, st, i, j) < best.value.cost);
      RowScan(p, st, i, j + 1, if take then Some(Candidate(i, j, PairCost(p, st, i, j))) else best)
  }

  /** Finishing a row from any point of the scan leaves the worker's result
      for everything up to the end of that row. */
  lemma {:induction false} RowScanBest(p: Params, st: State, t: nat, i: nat, j: nat, best: Option<Candidate>)
    requires p.workers > 0 && i % p.workers == t
    requires WorkerBestSoFar(p, st, t, best, i, j)
    ensures WorkerBestSoFar(p, st, t, RowScan(p, st, i, j, best), i, |st.layer|)
    decreases |st.layer| - j
  {
    if j >= |st.layer| {
      WidenScope(p, st, t, best, i, j, i, |st.layer|);
    } else if Admissible(p, st, i, j) && (best.None? || PairCost(p, st, i, j) < best.value.cost) {
      ScanTake(p, st, t, i, j, best);
      RowScanBest(p, st, t, i, j + 1, Some(Candidate(i, j, PairCost(p, st, i, j))));
    } else {
      ScanSkip(p, st, t, i, j, best);
      RowScanBest(p, st, t, i, j + 1, best);
    }
  }

  /** Scans row `i` of worker `t`. */
  method ScanRow(p: Params, st: State, t: nat, i: nat, best0: Option<Candidate>) returns (best: Option<Candidate>)
    requires p.workers > 0 && i % p.workers == t
    requires WorkerBestSoFar(p, st, t, best0, i, i + 1)
    ensures best == RowScan(p, st, i, i + 1, best0)
    ensures WorkerBestSoFar(p, st, t, best, i, |st.layer|)
  {
    best := best0;
    var j := i + 1;
    while j < |st.layer|
      invariant RowScan(p, st, i, j, best) == RowScan(p, st, i, i + 1, best0)
      decreases |st.layer| - j
    {
      var next := best;
      if Admissible(p, st, i, j) && (best.None? || PairCost(p, st, i, j) < best.value.cost) {
        next := Some(Candidate(i, j, PairCost(p, st, i, j)));
      }
      assert RowScan(p, st, i, j, best) == RowScan(p, st, i, j + 1, next);
      best, j := next, j + 1;
    }
    RowScanBest(p, st, t, i, i + 1, best0);
  }

  /** Having scanned row `i` completely, worker `t` has scanned everything
      before its next row `i + W`. */
  lemma NextRow(p: Params, st: State, t: nat, i: nat, best: Option<Candidate>)
    requires p.workers > 0 && i % p.workers == t
    requires WorkerBestSoFar(p, st, t, best, i, |st.layer|)
    ensures (i + p.workers) % p.workers == t
    ensures WorkerBestSoFar(p, st, t, best, i + p.workers, i + p.workers + 1)
  {
    var w := p.workers;
    ModShift(i, w);
    forall x: nat, y: nat | InScope(w, t, i + w, i + w + 1, x, y) && Admissible(p, st, x, y)
      ensures InScope(w, t, i, |st.layer|, x, y)
    {
      SliceStep(w, t, i, x);
    }
    WidenScope(p, st, t, best, i, |st.layer|, i + w, i + w + 1);
  }

  /** One worker: rows `t, t + W, t + 2W, ...`, each scanned left to right. */
  method WorkerScan(p: Params, st: State, t: nat) returns (best: Option<Candidate>)
    requires p.workers > 0 && t < p.workers
    ensures WorkerBestSoFar(p, st, t, best, |st.layer|, 0)
  {
    var w := p.workers;
    var n := |st.layer|;
    best := None;
    var i := t;
    assert i % w == t;
    forall x: nat, y: nat | InScope(w, t, i, i + 1, x, y)
      ensures !Admissible(p, st, x, y)
    {
      SliceStep(w, t, i, x);
    }
    while i + 1 < n
      invariant i % w == t
      invariant WorkerBestSoFar(p, st, t, best, i, i + 1)
      decreases n - i
    {
      best := ScanRow(p, st, t, i, best);
      NextRow(p, st, t, i, best);
      i := i + w;
    }
    forall x: nat, y: nat | InScope(w, t, n, 0, x, y) && Admissible(p, st, x, y)
      ensures InScope(w, t, i, i + 1, x, y)
    {
    }
    WidenScope(p, st, t, best, i, i + 1, n, 0);
  }

  /** `best` is the reduced result of the workers below `t`. */
  ghost predicate BestSoFar(p: Params, st: State, best: Option<Candidate>, t: nat)
    requires p.workers > 0
  {
    && (best.None? ==>
          forall i: nat, j: nat :: i % p.workers < t ==> !Admissible(p, st, i, j))
    && (best.Some? ==>
          && Admissible(p, st, best.value.i, best.value.j)
          && best.value.i % p.workers < t
          && best.value.cost == PairCost(p, st, best.value.i, best.value.j)
          && forall i: nat, j: nat :: i % p.workers < t && Admissible(p, st, i, j) ==>
               && best.value.cost <= PairCost(p, st, i, j)
               && (best.value.cost == PairCost(p, st, i, j) ==>
                     !RankBefore(p.workers, i, j, best.value.i, best.value.j)))
  }

  /** The winner of a round: an admissible pair of least cost, and among
      those the first by worker and then in row-major order. */
  ghost predicate IsWinner(p: Params, st: State, c: Candidate)
    requires p.workers > 0
  {
    && Admissible(p, st, c.i, c.j)
    && c.cost == PairCost(p, st, c.i, c.j)
    && forall i: nat, j: nat :: Admissible(p, st, i, j) ==>
         && c.cost <= PairCost(p, st, i, j)
         && (c.cost == PairCost(p, st, i, j) ==> !RankBefore(p.workers, i, j, c.i, c.j))
  }

  /** One round's search: run every worker, then reduce their results in
      worker order, replacing the best only on a strictly smaller cost. */
  method FindMergePair(p: Params, st: State) returns (best: Option<Candidate>)
    requires p.workers > 0
    ensures best.None? <==> forall i: nat, j: nat :: !Admissible(p, st, i, j)
    ensures best.Some? ==> IsWinner(p, st, best.value)
  {
    var w := p.workers;
    best := None;
    var t := 0;
    while t < w
      invariant t <= w
      invariant BestSoFar(p, st, best, t)
    {
      var wb := WorkerScan(p, st, t);
      if wb.Some? && (best.None? || wb.value.cost < best.value.cost) {
        best := wb;
      }
      t := t + 1;
    }
    if best.None? {
      forall i: nat, j: nat ensures !Admissible(p, st, i, j) {
        assert i % w < w;
      }
    }
  }

  /** The winner of a round is unique, so every run is deterministic. */
  lemma WinnerIsUnique(p: Params, st: State, c: Candidate, d: Candidate)
    requires p.workers > 0 && IsWinner(p, st, c) && IsWinner(p, st, d)
    ensures c == d
  {
  }

  // ---------------------------------------------------------------------
  // Applying a merge

  /** The pairs of active nodes whose union spread a round evaluates. */
  function EvaluatedPairs(p: Params, st: State): set<(NodeId, NodeId)> {
    set i: nat, j: nat | i < j < |st.layer| && Admissible(p, st, i, j) :: (st.layer[i], st.layer[j])
  }

  /** The memo after a round: the union spread of every admissible pair,
      computed only where no entry exists yet. */
  function RoundMemo(p: Params, st: State): (r: map<(NodeId, NodeId), real>)
    ensures p.model.Spread? ==>
      forall i: nat, j: nat :: Admissible(p, st, i, j) ==> (st.layer[i], st.layer[j]) in r
  {
    match p.model
    case Linkage(_) => st.memo
    case Spread(f) =>
      assert forall i: nat, j: nat :: Admissible(p, st, i, j) ==> (st.layer[i], st.layer[j]) in EvaluatedPairs(p, st) by {
        forall i: nat, j: nat | Admissible(p, st, i, j) ensures (st.layer[i], st.layer[j]) in EvaluatedPairs(p, st) {
        }
      }
      st.memo + map pr | pr in EvaluatedPairs(p, st) && pr !in st.memo :: f(Region(st, pr.0) + Region(st, pr.1))
  }

  /** An admissible pair is evaluated, so a spread cost has memoised it. */
  lemma WinnerEvaluated(p: Params, st: State, c: Candidate)
    requires Admissible(p, st, c.i, c.j)
    ensures (st.layer[c.i], st.layer[c.j]) in EvaluatedPairs(p, st)
    ensures p.model.Spread? ==> (st.layer[c.i], st.layer[c.j]) in RoundMemo(p, st)
  {
    assert (st.layer[c.i], st.layer[c.j]) in EvaluatedPairs(p, st);
  }

  /** The layer without `c1` and `c2`, order otherwise kept. */
  function Without(s: seq<NodeId>, c1: NodeId, c2: NodeId): (r: seq<NodeId>)
    ensures forall x :: x in r <==> x in s && x != c1 && x != c2
    ensures Distinct(s) ==> Distinct(r)
    ensures Distinct(s) && c1 != c2 ==>
      |r| == |s| - (if c1 in s then 1 else 0) - (if c2 in s then 1 else 0)
  {
    if s == [] then []
    else
      var rest := Without(s[1..], c1, c2);
      assert forall x :: x in s[1..] ==> x in s;
      assert Distinct(s) ==> s[0] !in s[1..];
      if s[0] == c1 || s[0] == c2 then rest else [s[0]] + rest
  }

  /** The node a merge of layer positions `i` and `j` appends to the arena. */
  function MergeNode(st: State, c: Candidate): TreeNode
    requires c.i < |st.layer| && c.j < |st.layer|
  {
    TreeNode(st.age + 1, c.cost, [st.layer[c.i], st.layer[c.j]], {})
  }

  /** The pair of `c` can be merged with memo `memo1`: two layer positions,
      the pair memoised when the cost is a spread. */
  predicate Mergeable(st: State, c: Candidate, spread: bool, memo1: map<(NodeId, NodeId), real>) {
    c.i < c.j < |st.layer| && (spread ==> (st.layer[c.i], st.layer[c.j]) in memo1)
  }

  /** The state after merging the pair of `c`, given the round's memo and
      the rewritten adjacency map: a new node one older than the newest,
      with the two nodes as children, replaces them in the layer, the
      contents and, under a spread cost, the caches. */
  function Assemble(st: State, c: Candidate, spread: bool, memo1: map<(NodeId, NodeId), real>,
                    adj: map<NodeId, set<NodeId>>): State
    requires Mergeable(st, c, spread, memo1)
  {
    var c1, c2 := st.layer[c.i], st.layer[c.j];
    var m := |st.arena|;
    var nodeCost := if spread then (st.nodeCost - {c1, c2})[m := memo1[(c1, c2)]] else st.nodeCost;
    var memo := if spread then (map pr | pr in memo1 && pr.0 != c1 :: memo1[pr]) else memo1;
    State(st.arena + [MergeNode(st, c)], Without(st.layer, c1, c2) + [m],
          (st.content - {c1, c2})[m := Region(st, c1) + Region(st, c2)],
          nodeCost, memo, adj, st.age + 1)
  }

  lemma AdmissibleMergeable(p: Params, st: State, c: Candidate)
    requires Admissible(p, st, c.i, c.j)
    ensures Mergeable(st, c, p.model.Spread?, RoundMemo(p, st))
  {
    WinnerEvaluated(p, st, c);
  }

  /** Merges the winning pair and rewrites the adjacency map. A missing
      adjacency entry for the second node is the source's null dereference. */
  function Merge(p: Params, st: State, c: Candidate): (r: Result<State>)
    requires LayerOk(st) && AdjOk(st) && Admissible(p, st, c.i, c.j)
    ensures r.Success? <==> !p.constrained || st.layer[c.j] in st.adj
    ensures r.Failure? ==> r.error == MissingAdjacencyKey
    ensures Mergeable(st, c, p.model.Spread?, RoundMemo(p, st))
    ensures r.Success? ==> r.value == Assemble(st, c, p.model.Spread?, RoundMemo(p, st), r.value.adj)
  {
    AdmissibleMergeable(p, st, c);
    var memo1 := RoundMemo(p, st);
    if !p.constrained then Success(Assemble(st, c, p.model.Spread?, memo1, st.adj))
    else
      match MergeNeighbours(st.adj, st.layer[c.i], st.layer[c.j], |st.arena|)
      case None => Failure(MissingAdjacencyKey)
      case Some(adj) => Success(Assemble(st, c, p.model.Spread?, memo1, adj))
  }

  /** The shape of a merge: one new node, the layer shrinks by one, the
      merged regions are united. */
  lemma MergeLayer(st: State, c: Candidate, sp: bool, memo1: map<(NodeId, NodeId), real>, adj: map<NodeId, set<NodeId>>)
    requires LayerOk(st) && ContentOk(st) && Mergeable(st, c, sp, memo1)
    ensures var c1, c2, m, s := st.layer[c.i], st.layer[c.j], |st.arena|, Assemble(st, c, sp, memo1, adj);
      && s.arena == st.arena + [MergeNode(st, c)]
      && s.age == st.age + 1 && s.age > st.arena[c1].age && s.age > st.arena[c2].age
      && |s.layer| + 1 == |st.layer|
      && (forall x :: x in s.layer <==> (x in st.layer && x != c1 && x != c2) || x == m)
  {
    var c1, c2 := st.layer[c.i], st.layer[c.j];
    assert c1 in st.content && c2 in st.content;
  }

  lemma MergeContent(st: State, c: Candidate, sp: bool, memo1: map<(NodeId, NodeId), real>, adj: map<NodeId, set<NodeId>>)
    requires Mergeable(st, c, sp, memo1)
    ensures var c1, c2, m, s := st.layer[c.i], st.layer[c.j], |st.arena|, Assemble(st, c, sp, memo1, adj);
      && s.content.Keys == st.content.Keys - {c1, c2} + {m}
      && s.content[m] == Region(st, c1) + Region(st, c2)
      && (forall x :: x in s.content && x != m ==> s.content[x] == st.content[x])
  {
  }

  /** The merge node's cache entry is the memoised union value of the pair,
      not a recomputation. */
  lemma MergeNodeCost(st: State, c: Candidate, memo1: map<(NodeId, NodeId), real>, adj: map<NodeId, set<NodeId>>)
    requires Mergeable(st, c, true, memo1)
    ensures var c1, c2, m, s := st.layer[c.i], st.layer[c.j], |st.arena|, Assemble(st, c, true, memo1, adj);
      && s.nodeCost.Keys == st.nodeCost.Keys - {c1, c2} + {m}
      && s.nodeCost[m] == memo1[(c1, c2)]
      && (forall x :: x in s.nodeCost && x != m ==> s.nodeCost[x] == st.nodeCost[x])
  {
  }

  /** The memo row of the first merged node is dropped, all else is kept. */
  lemma MergeMemo(st: State, c: Candidate, memo1: map<(NodeId, NodeId), real>, adj: map<NodeId, set<NodeId>>)
    requires Mergeable(st, c, true, memo1)
    ensures var c1, s := st.layer[c.i], Assemble(st, c, true, memo1, adj);
      && (forall pr :: pr in s.memo <==> pr in memo1 && pr.0 != c1)
      && (forall pr :: pr in s.memo ==> s.memo[pr] == memo1[pr])
  {
  }

  lemma MergeAdjacency(p: Params, st: State, c: Candidate)
    requires LayerOk(st) && AdjOk(st) && Admissible(p, st, c.i, c.j) && Merge(p, st, c).Success?
    ensures var c1, c2, m, s := st.layer[c.i], st.layer[c.j], |st.arena|, Merge(p, st, c).value;
      && (p.constrained ==> s.adj == MergeNeighbours(st.adj, c1, c2, m).value)
      && (!p.constrained ==> s.adj == st.adj)
  {
  }

  /** Appending a node whose children already exist keeps the arena well formed. */
  lemma AppendWellFormed(a: Arena, node: TreeNode)
    requires WellFormed(a)
    requires |node.children| == 0 || |node.children| == 2
    requires forall k :: 0 <= k < |node.children| ==> node.children[k] < |a|
    ensures WellFormed(a + [node])
  {
    var b := a + [node];
    forall n | 0 <= n < |b|
      ensures |b[n].children| == 0 || |b[n].children| == 2
      ensures forall k :: 0 <= k < |b[n].children| ==> b[n].children[k] < n
    {
      if n < |a| {
        assert b[n] == a[n];
      }
    }
  }

  /** Appending a node below a bound to a distinct list of nodes under that bound. */
  lemma AppendFreshDistinct(rest: seq<NodeId>, m: NodeId)
    requires Distinct(rest) && forall x :: x in rest ==> x < m
    ensures Distinct(rest + [m])
    ensures forall k :: 0 <= k < |rest + [m]| ==> (rest + [m])[k] <= m
  {
    var r := rest + [m];
    forall a, b | 0 <= a < b < |r| ensures r[a] != r[b] {
      if b == |rest| {
        assert r[a] in rest;
      }
    }
    forall k | 0 <= k < |r| ensures r[k] <= m {
      if k < |rest| {
        assert r[k] in rest;
      }
    }
  }

  lemma MergeKeepsLayerOk(st: State, c: Candidate, sp: bool, memo1: map<(NodeId, NodeId), real>, adj: map<NodeId, set<NodeId>>)
    requires LayerOk(st) && Mergeable(st, c, sp, memo1)
    ensures LayerOk(Assemble(st, c, sp, memo1, adj))
  {
    var c1, c2, m := st.layer[c.i], st.layer[c.j], |st.arena|;
    var s := Assemble(st, c, sp, memo1, adj);
    AppendWellFormed(st.arena, MergeNode(st, c));
    var rest := Without(st.layer, c1, c2);
    assert forall x :: x in rest ==> x in st.layer;
    AppendFreshDistinct(rest, m);
  }

  lemma MergeKeepsAdjOk(p: Params, st: State, c: Candidate)
    requires Inv(p, st) && Admissible(p, st, c.i, c.j) && Merge(p, st, c).Success?
    ensures AdjOk(Merge(p, st, c).value)
  {
    var c1, c2, m := st.layer[c.i], st.layer[c.j], |st.arena|;
    var s := Merge(p, st, c).value;
    assert |s.arena| == m + 1;
    MergeAdjacency(p, st, c);
    if p.constrained {
      forall x, y | x in s.adj && y in s.adj[x]
        ensures x < |s.arena| && y < |s.arena|
      {
        var k, z := EdgeOrigin(st.adj, c1, c2, m, x, y);
      }
    }
  }

  /** Appending a merge node: its contents are its children's, and every
      older node keeps its contents. */
  lemma ContentsAfterAppend(a: Arena, node: TreeNode, x: NodeId)
    requires WellFormed(a) && node.age > 0 && |node.children| == 2
    requires node.children[0] < |a| && node.children[1] < |a|
    requires x <= |a|
    ensures WellFormed(a + [node])
    ensures x == |a| ==> Contents(a + [node], x) == Contents(a, node.children[0]) + Contents(a, node.children[1])
    ensures x < |a| ==> Contents(a + [node], x) == Contents(a, x)
  {
    var b := a + [node];
    AppendWellFormed(a, node);
    assert a == b[..|a|];
    if x == |a| {
      ContentsOfMergeNode(b, x);
      ContentsStable(a, b, node.children[0]);
      ContentsStable(a, b, node.children[1]);
    } else {
      ContentsStable(a, b, x);
    }
  }

  /** The merge node holds the observations of the two merged nodes, and
      every other active node keeps its contents in the grown arena. */
  lemma MergeKeepsContents(st: State, c: Candidate, sp: bool, memo1: map<(NodeId, NodeId), real>, adj: map<NodeId, set<NodeId>>)
    requires LayerOk(st) && ContentOk(st) && Mergeable(st, c, sp, memo1)
    ensures var s := Assemble(st, c, sp, memo1, adj);
      && WellFormed(s.arena)
      && forall x :: x in s.content ==> x < |s.arena| && s.content[x] == Contents(s.arena, x)
  {
    var s := Assemble(st, c, sp, memo1, adj);
    var node := MergeNode(st, c);
    AppendWellFormed(st.arena, node);
    MergeContent(st, c, sp, memo1, adj);
    forall x | x in s.content
      ensures x < |s.arena| && s.content[x] == Contents(s.arena, x)
    {
      ContentsAfterAppend(st.arena, node, x);
    }
  }

  /** No active node is older than the merge node. */
  lemma MergeKeepsAges(st: State, c: Candidate, sp: bool, memo1: map<(NodeId, NodeId), real>, adj: map<NodeId, set<NodeId>>)
    requires LayerOk(st) && ContentOk(st) && Mergeable(st, c, sp, memo1)
    ensures var s := Assemble(st, c, sp, memo1, adj);
      forall x :: x in s.content ==> x < |s.arena| && s.arena[x].age <= s.age
  {
    var m := |st.arena|;
    var s := Assemble(st, c, sp, memo1, adj);
    MergeContent(st, c, sp, memo1, adj);
    forall x | x in s.content ensures x < |s.arena| && s.arena[x].age <= s.age {
      if x != m {
        assert s.arena[x] == st.arena[x];
      }
    }
  }

  lemma MergeKeepsContentOk(st: State, c: Candidate, sp: bool, memo1: map<(NodeId, NodeId), real>, adj: map<NodeId, set<NodeId>>)
    requires LayerOk(st) && ContentOk(st) && Mergeable(st, c, sp, memo1)
    ensures LayerOk(Assemble(st, c, sp, memo1, adj))
    ensures ContentOk(Assemble(st, c, sp, memo1, adj))
  {
    MergeKeepsLayerOk(st, c, sp, memo1, adj);
    MergeLayer(st, c, sp, memo1, adj);
    MergeContent(st, c, sp, memo1, adj);
    MergeKeepsContents(st, c, sp, memo1, adj);
    MergeKeepsAges(st, c, sp, memo1, adj);
  }

  /** The memo after a round is still sound. */
  lemma RoundMemoSound(p: Params, st: State)
    requires Inv(p, st) && p.model.Spread?
    ensures MemoSound(p.model.spread, st, RoundMemo(p, st))
  {
    var f := p.model.spread;
    forall pr | pr in RoundMemo(p, st)
      ensures pr.0 < |st.arena| && pr.1 < |st.arena|
      ensures pr.0 in st.content && pr.1 in st.content ==>
            RoundMemo(p, st)[pr] == f(st.content[pr.0] + st.content[pr.1])
    {
      if pr !in st.memo {
        assert pr in EvaluatedPairs(p, st);
        var i: nat, j: nat :| i < j < |st.layer| && Admissible(p, st, i, j) && pr == (st.layer[i], st.layer[j]);
      }
    }
  }

  /** The merge node's cache entry is the memoised union spread, which is
      its own spread; every other active node keeps its entry. */
  lemma MergeKeepsNodeCost(f: set<Obs> -> real, st: State, c: Candidate, memo1: map<(NodeId, NodeId), real>, adj: map<NodeId, set<NodeId>>)
    requires LayerOk(st) && ContentOk(st) && Mergeable(st, c, true, memo1)
    requires NodeCostSound(f, st) && MemoSound(f, st, memo1)
    ensures NodeCostSound(f, Assemble(st, c, true, memo1, adj))
  {
    var c1, c2, m := st.layer[c.i], st.layer[c.j], |st.arena|;
    var s := Assemble(st, c, true, memo1, adj);
    MergeContent(st, c, true, memo1, adj);
    MergeNodeCost(st, c, memo1, adj);
    assert c1 in st.content && c2 in st.content;
    forall x | x in s.content ensures x in s.nodeCost && s.nodeCost[x] == f(s.content[x]) {
      if x != m {
        assert x in st.content && x != c1 && x != c2;
      }
    }
  }

  /** Dropping the first merged node's memo row keeps the memo sound: no
      kept entry mentions a node whose region changed. */
  lemma MergeKeepsMemo(f: set<Obs> -> real, st: State, c: Candidate, memo1: map<(NodeId, NodeId), real>, adj: map<NodeId, set<NodeId>>)
    requires LayerOk(st) && ContentOk(st) && Mergeable(st, c, true, memo1) && MemoSound(f, st, memo1)
    ensures var s := Assemble(st, c, true, memo1, adj); MemoSound(f, s, s.memo)
  {
    var m := |st.arena|;
    var s := Assemble(st, c, true, memo1, adj);
    MergeContent(st, c, true, memo1, adj);
    MergeMemo(st, c, memo1, adj);
    forall pr | pr in s.memo
      ensures pr.0 < |s.arena| && pr.1 < |s.arena|
      ensures pr.0 in s.content && pr.1 in s.content ==> s.memo[pr] == f(s.content[pr.0] + s.content[pr.1])
    {
      assert pr.0 < m && pr.1 < m;
    }
  }

  lemma MergeKeepsCacheOk(p: Params, st: State, c: Candidate, adj: map<NodeId, set<NodeId>>)
    requires Inv(p, st) && Admissible(p, st, c.i, c.j)
    ensures CacheOk(p, Assemble(st, c, p.model.Spread?, RoundMemo(p, st), adj))
  {
    if p.model.Spread? {
      RoundMemoSound(p, st);
      MergeKeepsNodeCost(p.model.spread, st, c, RoundMemo(p, st), adj);
      MergeKeepsMemo(p.model.spread, st, c, RoundMemo(p, st), adj);
    }
  }

  /** A merge keeps the engine invariant. */
  lemma MergeKeepsInv(p: Params, st: State, c: Candidate)
    requires Inv(p, st) && Admissible(p, st, c.i, c.j) && Merge(p, st, c).Success?
    ensures Inv(p, Merge(p, st, c).value)
  {
    var s := Merge(p, st, c).value;
    MergeKeepsContentOk(st, c, p.model.Spread?, RoundMemo(p, st), s.adj);
    MergeKeepsAdjOk(p, st, c);
    MergeKeepsCacheOk(p, st, c, s.adj);
  }

  // ---------------------------------------------------------------------
  // What a merge keeps beyond the invariant

  /** The observations held by the active layer. */
  ghost function Covered(st: State): set<Obs> {
    set x, o | x in st.content && o in st.content[x] :: o
  }

  /** No observation belongs to two active nodes. */
  ghost predicate Disjoint(st: State) {
    forall x, y :: x in st.content && y in st.content && x != y ==> st.content[x] !! st.content[y]
  }

  /** A merge moves observations between regions but never loses or adds one. */
  lemma MergeKeepsCovered(st: State, c: Candidate, sp: bool, memo1: map<(NodeId, NodeId), real>, adj: map<NodeId, set<NodeId>>)
    requires LayerOk(st) && ContentOk(st) && Mergeable(st, c, sp, memo1)
    ensures Covered(Assemble(st, c, sp, memo1, adj)) == Covered(st)
  {
    var c1, c2, m := st.layer[c.i], st.layer[c.j], |st.arena|;
    var s := Assemble(st, c, sp, memo1, adj);
    MergeContent(st, c, sp, memo1, adj);
    assert c1 in st.content && c2 in st.content;
    forall o | o in Covered(st) ensures o in Covered(s) {
      var x :| x in st.content && o in st.content[x];
      if x == c1 || x == c2 {
        assert o in s.content[m];
      } else {
        assert o in s.content[x];
      }
    }
    forall o | o in Covered(s) ensures o in Covered(st) {
      var x :| x in s.content && o in s.content[x];
      if x == m {
        if o in st.content[c1] {
          assert o in Covered(st);
        } else {
          assert o in st.content[c2];
        }
      } else {
        assert o in st.content[x];
      }
    }
  }

  /** A merge keeps the active regions pairwise disjoint. */
  lemma MergeKeepsDisjoint(st: State, c: Candidate, sp: bool, memo1: map<(NodeId, NodeId), real>, adj: map<NodeId, set<NodeId>>)
    requires LayerOk(st) && ContentOk(st) && Mergeable(st, c, sp, memo1)
    requires Disjoint(st)
    ensures Disjoint(Assemble(st, c, sp, memo1, adj))
  {
    var c1, c2, m := st.layer[c.i], st.layer[c.j], |st.arena|;
    var s := Assemble(st, c, sp, memo1, adj);
    MergeContent(st, c, sp, memo1, adj);
    assert c1 in st.content && c2 in st.content;
    forall x, y | x in s.content && y in s.content && x != y
      ensures s.content[x] !! s.content[y]
    {
      if x == m {
        assert st.content[y] !! st.content[c1] && st.content[y] !! st.content[c2];
      } else if y == m {
        assert st.content[x] !! st.content[c1] && st.content[x] !! st.content[c2];
      }
    }
  }

  /** Appending a merge node whose two children hold disjoint observations
      keeps every merge of the arena joining disjoint halves. */
  lemma AppendChildrenDisjoint(a: Arena, node: TreeNode)
    requires WellFormed(a) && ChildrenDisjoint(a) && node.age > 0 && |node.children| == 2
    requires node.children[0] < |a| && node.children[1] < |a|
    requires Contents(a, node.children[0]) !! Contents(a, node.children[1])
    ensures WellFormed(a + [node]) && ChildrenDisjoint(a + [node])
  {
    var b := a + [node];
    AppendWellFormed(a, node);
    forall n | 0 <= n < |b| && b[n].children != []
      ensures Contents(b, b[n].children[0]) !! Contents(b, b[n].children[1])
    {
      var x, y := b[n].children[0], b[n].children[1];
      ContentsAfterAppend(a, node, x);
      ContentsAfterAppend(a, node, y);
      if n < |a| {
        assert b[n] == a[n];
      } else {
        assert b[n] == node;
      }
    }
  }

  /** The merge node joins two distinct active regions, which are disjoint,
      so every merge of the grown arena still joins disjoint halves. */
  lemma MergeKeepsChildrenDisjoint(st: State, c: Candidate, sp: bool, memo1: map<(NodeId, NodeId), real>, adj: map<NodeId, set<NodeId>>)
    requires LayerOk(st) && ContentOk(st) && Mergeable(st, c, sp, memo1)
    requires Disjoint(st) && ChildrenDisjoint(st.arena)
    ensures WellFormed(Assemble(st, c, sp, memo1, adj).arena)
    ensures ChildrenDisjoint(Assemble(st, c, sp, memo1, adj).arena)
  {
    var c1, c2 := st.layer[c.i], st.layer[c.j];
    MergeLayer(st, c, sp, memo1, adj);
    assert c1 in st.content && c2 in st.content && c1 != c2;
    assert st.content[c1] !! st.content[c2];
    AppendChildrenDisjoint(st.arena, MergeNode(st, c));
  }

  /** Appending a node strictly older than its two children keeps the
      arena layered. */
  lemma AppendLayered(a: Arena, node: TreeNode)
    requires Layered(a) && node.age > 0 && |node.children| == 2
    requires node.children[0] < |a| && node.children[1] < |a|
    requires a[node.children[0]].age < node.age && a[node.children[1]].age < node.age
    ensures Layered(a + [node])
  {
    var b := a + [node];
    AppendWellFormed(a, node);
    forall n | 0 <= n < |b|
      ensures b[n].age == 0 <==> b[n].children == []
      ensures forall k :: 0 <= k < |b[n].children| ==> b[b[n].children[k]].age < b[n].age
    {
      if n < |a| {
        assert b[n] == a[n];
        forall k | 0 <= k < |a[n].children| ensures b[a[n].children[k]] == a[a[n].children[k]] {
        }
      } else {
        assert b[n] == node;
        assert b[node.children[0]] == a[node.children[0]] && b[node.children[1]] == a[node.children[1]];
      }
    }
  }

  /** The merge node is one older than every node it merges, so the arena
      keeps recording the merge order. */
  lemma MergeKeepsLayered(st: State, c: Candidate, sp: bool, memo1: map<(NodeId, NodeId), real>, adj: map<NodeId, set<NodeId>>)
    requires LayerOk(st) && ContentOk(st) && Mergeable(st, c, sp, memo1)
    requires Layered(st.arena)
    ensures Layered(Assemble(st, c, sp, memo1, adj).arena)
  {
    MergeLayer(st, c, sp, memo1, adj);
    AppendLayered(st.arena, MergeNode(st, c));
  }

  /** With a symmetric adjacency map a merge cannot hit a missing key, and
      the rewritten map is symmetric again. */
  lemma SymmetricMergeSucceeds(p: Params, st: State, c: Candidate)
    requires LayerOk(st) && AdjOk(st) && Admissible(p, st, c.i, c.j)
    requires Symmetric(st.adj)
    ensures Merge(p, st, c).Success?
    ensures Symmetric(Merge(p, st, c).value.adj)
  {
    var c1, c2, m := st.layer[c.i], st.layer[c.j], |st.arena|;
    if p.constrained {
      assert c1 in st.adj && c2 in st.adj[c1];
      MergeAdjacencyFresh(st);
      MergeNeighboursKeepsSymmetry(st.adj, c1, c2, m);
    }
    MergeAdjacency(p, st, c);
    var adj := Merge(p, st, c).value.adj;
    assert Symmetric(adj);
  }

  lemma MergeAdjacencyFresh(st: State)
    requires AdjOk(st)
    ensures Fresh(st.adj, |st.arena|)
  {
  }

  // ---------------------------------------------------------------------
  // The whole run

  /** The engine stops: one region is left or no pair is admissible. */
  ghost predicate Finished(p: Params, st: State) {
    |st.layer| <= 1 || forall i: nat, j: nat :: !Admissible(p, st, i, j)
  }

  /** One round from `st` with winner `c`: the round's preconditions hold,
      `c` wins and its merge succeeds. */
  ghost predicate Step(p: Params, st: State, c: Candidate) {
    p.workers > 0 && Inv(p, st) && |st.layer| > 1 && IsWinner(p, st, c) && Merge(p, st, c).Success?
  }

  /** The state after a round with winner `c` (the state itself when the
      round cannot be taken). */
  ghost function Next(p: Params, st: State, c: Candidate): State {
    if LayerOk(st) && AdjOk(st) && Admissible(p, st, c.i, c.j) && Merge(p, st, c).Success?
    then Merge(p, st, c).value else st
  }

  /** `cs` label a chain of `ok` steps from `st` to `end`, each state
      obtained from the previous one by `next`. */
  ghost predicate Chain<S, C>(ok: (S, C) -> bool, next: (S, C) -> S, st: S, cs: seq<C>, end: S)
    decreases |cs|
  {
    if cs == [] then end == st
    else ok(st, cs[0]) && Chain(ok, next, next(st, cs[0]), cs[1..], end)
  }

  /** A chain followed by one more step is a chain. */
  lemma {:induction false} ChainExtend<S, C>(ok: (S, C) -> bool, next: (S, C) -> S, st: S, cs: seq<C>, mid: S, c: C)
    requires Chain(ok, next, st, cs, mid) && ok(mid, c)
    ensures Chain(ok, next, st, cs + [c], next(mid, c))
    decreases |cs|
  {
    if cs == [] {
      assert cs + [c] == [c] && [c][1..] == [];
    } else {
      ChainExtend(ok, next, next(st, cs[0]), cs[1..], mid, c);
      assert (cs + [c])[0] == cs[0] && (cs + [c])[1..] == cs[1..] + [c];
    }
  }

  /** `cs` are the winners of the successive rounds leading from `st` to `end`. */
  ghost predicate Run(p: Params, st: State, cs: seq<Candidate>, end: State) {
    Chain((s, c) => Step(p, s, c), (s, c) => Next(p, s, c), st, cs, end)
  }

  /** A run followed by one more round is a run. */
  lemma RunExtend(p: Params, st: State, cs: seq<Candidate>, mid: State, c: Candidate)
    requires Run(p, st, cs, mid) && Step(p, mid, c)
    ensures Run(p, st, cs + [c], Next(p, mid, c))
  {
    ChainExtend((s, c) => Step(p, s, c), (s, c) => Next(p, s, c), st, cs, mid, c);
  }

  /** Runs are deterministic: from one state, the rounds and the end state
      are fixed. */
  lemma {:induction false} RunIsUnique(p: Params, st: State, cs: seq<Candidate>, end: State, ds: seq<Candidate>, end2: State)
    requires p.workers > 0 && Run(p, st, cs, end) && Run(p, st, ds, end2)
    requires Finished(p, end) && Finished(p, end2)
    ensures cs == ds && end == end2
    decreases |cs|
  {
    if cs != [] && ds != [] {
      WinnerIsUnique(p, st, cs[0], ds[0]);
      RunIsUnique(p, Next(p, st, cs[0]), cs[1..], end, ds[1..], end2);
    }
  }

  /** Everything one successful round keeps, for the loop of `Agglomerate`. */
  lemma MergeStep(p: Params, st0: State, st: State, c: Candidate)
    requires Inv(p, st) && Admissible(p, st, c.i, c.j) && Merge(p, st, c).Success?
    requires |st0.arena| <= |st.arena| && st.arena[..|st0.arena|] == st0.arena
    ensures var s := Merge(p, st, c).value;
      && Inv(p, s)
      && |st0.arena| <= |s.arena| && s.arena[..|st0.arena|] == st0.arena
      && |s.arena| == |st.arena| + 1 && |s.layer| + 1 == |st.layer|
      && Covered(s) == Covered(st)
      && (Disjoint(st) ==> Disjoint(s))
      && (Disjoint(st) && ChildrenDisjoint(st.arena) ==> ChildrenDisjoint(s.arena))
      && (Layered(st.arena) ==> Layered(s.arena))
      && (p.constrained && Symmetric(st.adj) ==> Symmetric(s.adj))
  {
    var s := Merge(p, st, c).value;
    var sp, memo1 := p.model.Spread?, RoundMemo(p, st);
    MergeKeepsInv(p, st, c);
    MergeLayer(st, c, sp, memo1, s.adj);
    assert s.arena[..|st0.arena|] == st.arena[..|st0.arena|];
    MergeKeepsCovered(st, c, sp, memo1, s.adj);
    if Disjoint(st) {
      MergeKeepsDisjoint(st, c, sp, memo1, s.adj);
      if ChildrenDisjoint(st.arena) {
        MergeKeepsChildrenDisjoint(st, c, sp, memo1, s.adj);
      }
    }
    if Layered(st.arena) {
      MergeKeepsLayered(st, c, sp, memo1, s.adj);
    }
    if p.constrained && Symmetric(st.adj) {
      SymmetricMergeSucceeds(p, st, c);
    }
  }

  /** The rounds `cs` lead from `st` to a state with more than one region
      whose next winner cannot be merged: its second node has no adjacency
      entry. */
  ghost predicate StuckAfter(p: Params, st: State, cs: seq<Candidate>) {
    && p.workers > 0
    && exists mid: State, c: Candidate ::
         && Run(p, st, cs, mid) && Inv(p, mid) && |mid.layer| > 1
         && IsWinner(p, mid, c) && Merge(p, mid, c).Failure?
  }

  /** Merges the cheapest admissible pair, round after round, while more
      than one region is active. Returns the final state and the winners
      of the rounds; fails only when, after a run of rounds, the winner of
      the next round has a second node without an adjacency entry, which a
      symmetric adjacency map rules out. */
  method Agglomerate(p: Params, st0: State) returns (r: Result<State>, merges: seq<Candidate>)
    requires p.workers > 0 && Inv(p, st0)
    ensures r.Failure? ==> p.constrained && r.error == MissingAdjacencyKey
    ensures r.Failure? ==> StuckAfter(p, st0, merges)
    ensures !p.constrained || Symmetric(st0.adj) ==> r.Success?
    ensures r.Success? ==>
      && Inv(p, r.value) && Finished(p, r.value) && Run(p, st0, merges, r.value)
      && |st0.arena| <= |r.value.arena| && r.value.arena[..|st0.arena|] == st0.arena
      && |r.value.arena| - |st0.arena| == |st0.layer| - |r.value.layer| == |merges|
      && Covered(r.value) == Covered(st0)
      && (Disjoint(st0) ==> Disjoint(r.value))
      && (Disjoint(st0) && ChildrenDisjoint(st0.arena) ==> ChildrenDisjoint(r.value.arena))
      && (Layered(st0.arena) ==> Layered(r.value.arena))
  {
    var st := st0;
    merges := [];
    while |st.layer| > 1
      invariant Inv(p, st) && Run(p, st0, merges, st)
      invariant |st0.arena| <= |st.arena| && st.arena[..|st0.arena|] == st0.arena
      invariant |st.arena| - |st0.arena| == |st0.layer| - |st.layer| == |merges|
      invariant Covered(st) == Covered(st0)
      invariant Disjoint(st0) ==> Disjoint(st)
      invariant Disjoint(st0) && ChildrenDisjoint(st0.arena) ==> ChildrenDisjoint(st.arena)
      invariant Layered(st0.arena) ==> Layered(st.arena)
      invariant p.constrained && Symmetric(st0.adj) ==> Symmetric(st.adj)
      decreases |st.layer|
    {
      var best := FindMergePair(p, st);
      if best.None? {
        return Success(st), merges;
      }
      var c := best.value;
      var next := Merge(p, st, c);
      if next.Failure? {
        if p.constrained && Symmetric(st.adj) {
          SymmetricMergeSucceeds(p, st, c);
        }
        assert StuckAfter(p, st0, merges) by {
          assert Run(p, st0, merges, st) && Inv(p, st) && |st.layer| > 1
            && IsWinner(p, st, c) && Merge(p, st, c).Failure?;
        }
        return next, merges;
      }
      MergeStep(p, st0, st, c);
      RunExtend(p, st0, merges, st, c);
      merges := merges + [c];
      st := next.value;
    }
    return Success(st), merges;
  }

  // ---------------------------------------------------------------------
  // The initial state

  /** The nodes of `s` in order of first occurrence: the key set of the
      source's active-layer map, into which the input list is put node by
      node. */
  function Dedup(s: seq<NodeId>): (r: seq<NodeId>)
    ensures Distinct(r)
    ensures forall x :: x in r <==> x in s
    ensures |r| <= |s|
  {
    if s == [] then []
    else
      var rest := Dedup(s[..|s| - 1]);
      assert forall x :: x in s <==> x in s[..|s| - 1] || x == s[|s| - 1];
      if s[|s| - 1] in rest then rest else rest + [s[|s| - 1]]
  }

  /** The age of the oldest node of the list, 0 for none. */
  function MaxAge(a: Arena, s: seq<NodeId>): (m: nat)
    requires forall k :: 0 <= k < |s| ==> s[k] < |a|
    ensures forall k :: 0 <= k < |s| ==> a[s[k]].age <= m
    ensures s == [] ==> m == 0
    ensures s != [] ==> exists k :: 0 <= k < |s| && a[s[k]].age == m
  {
    if s == [] then 0
    else
      var m0 := MaxAge(a, s[..|s| - 1]);
      var last := a[s[|s| - 1]].age;
      assert forall k :: 0 <= k < |s| - 1 ==> s[..|s| - 1][k] == s[k];
      if last > m0 then last else m0
  }

  /** The state before the first round: the leaf layer with its contents,
      its cached spreads, an empty memo and a copy of the adjacency map. */
  function Start(p: Params, a: Arena, leafLayer: seq<NodeId>, adj: map<NodeId, set<NodeId>>): (st: State)
    requires WellFormed(a) && InArena(a, leafLayer)
  {
    var layer := Dedup(leafLayer);
    var content := map x | x in leafLayer :: Contents(a, x);
    var nodeCost := match p.model
      case Spread(f) => map x | x in leafLayer :: f(Contents(a, x))
      case Linkage(_) => map[];
    State(a, layer, content, nodeCost, map[], adj, MaxAge(a, leafLayer))
  }

  /** The initial state satisfies the invariant, holds the contents of the
      leaf layer and has not merged anything yet. */
  lemma StartInv(p: Params, a: Arena, leafLayer: seq<NodeId>, adj: map<NodeId, set<NodeId>>)
    requires WellFormed(a) && InArena(a, leafLayer)
    requires forall x :: x in adj ==> x < |a| && forall y :: y in adj[x] ==> y < |a|
    ensures var st := Start(p, a, leafLayer, adj);
      && Inv(p, st)
      && st.arena == a && st.adj == adj
      && (forall x :: x in st.layer <==> x in leafLayer)
      && Covered(st) == LayerContents(a, leafLayer)
  {
    var st := Start(p, a, leafLayer, adj);
    forall k | 0 <= k < |st.layer| ensures st.layer[k] < |a| {
      assert st.layer[k] in leafLayer;
    }
    forall x | x in st.content ensures st.arena[x].age <= st.age {
      var k :| 0 <= k < |leafLayer| && leafLayer[k] == x;
    }
    forall o | o in Covered(st) ensures o in LayerContents(a, leafLayer) {
      var x :| x in st.content && o in st.content[x];
      var k :| 0 <= k < |leafLayer| && leafLayer[k] == x;
    }
    forall o | o in LayerContents(a, leafLayer) ensures o in Covered(st) {
      var k :| 0 <= k < |leafLayer| && o in Contents(a, leafLayer[k]);
      assert o in st.content[leafLayer[k]];
    }
  }

  /** The observations held by the active layer are the contents of its
      nodes in the tree. */
  lemma CoveredIsContents(p: Params, st: State)
    requires Inv(p, st)
    ensures InArena(st.arena, st.layer)
    ensures Covered(st) == LayerContents(st.arena, st.layer)
  {
    forall o | o in Covered(st) ensures o in LayerContents(st.arena, st.layer) {
      var x :| x in st.content && o in st.content[x];
      var k :| 0 <= k < |st.layer| && st.layer[k] == x;
    }
    forall o | o in LayerContents(st.arena, st.layer) ensures o in Covered(st) {
      var k :| 0 <= k < |st.layer| && o in Contents(st.arena, st.layer[k]);
      assert o in st.content[st.layer[k]];
    }
  }

  /** Disjoint active regions are pairwise disjoint tree contents of the
      layer's nodes. */
  lemma DisjointLayer(p: Params, st: State)
    requires Inv(p, st) && Disjoint(st)
    ensures InArena(st.arena, st.layer) && PairwiseDisjoint(st.arena, st.layer)
  {
    forall k, l | 0 <= k < |st.layer| && 0 <= l < |st.layer| && k != l
      ensures Contents(st.arena, st.layer[k]) !! Contents(st.arena, st.layer[l])
    {
      var x, y := st.layer[k], st.layer[l];
      assert x != y by {
        if k < l {
          assert st.layer[k] != st.layer[l];
        } else {
          assert st.layer[l] != st.layer[k];
        }
      }
      assert x in st.content && y in st.content;
    }
  }

  /** A leaf layer whose different nodes hold disjoint contents starts the
      engine with disjoint regions. */
  lemma StartDisjoint(p: Params, a: Arena, leafLayer: seq<NodeId>, adj: map<NodeId, set<NodeId>>)
    requires WellFormed(a) && InArena(a, leafLayer) && NodesDisjoint(a, leafLayer)
    ensures Disjoint(Start(p, a, leafLayer, adj))
  {
    var st := Start(p, a, leafLayer, adj);
    forall x, y | x in st.content && y in st.content && x != y
      ensures st.content[x] !! st.content[y]
    {
      var k :| 0 <= k < |leafLayer| && leafLayer[k] == x;
      var l :| 0 <= l < |leafLayer| && leafLayer[l] == y;
    }
  }

  /** What a successful build promises: a finished run of rounds from the
      start state on the leaf layer, which only appends one node per merge,
      keeps the leaf layer's observations and layering, and keeps disjoint
      leaves under disjoint merges disjoint. */
  ghost predicate Built(p: Params, a: Arena, leafLayer: seq<NodeId>, adj: map<NodeId, set<NodeId>>,
                        merges: seq<Candidate>, end: State)
    requires WellFormed(a) && InArena(a, leafLayer)
  {
    && Finished(p, end)
    && Run(p, Start(p, a, leafLayer, adj), merges, end)
    && |a| <= |end.arena| && end.arena[..|a|] == a
    && |end.arena| - |a| == |merges| == |Dedup(leafLayer)| - |end.layer|
    && InArena(end.arena, end.layer) && WellFormed(end.arena)
    && LayerContents(end.arena, end.layer) == LayerContents(a, leafLayer)
    && (Layered(a) ==> Layered(end.arena))
    && (ChildrenDisjoint(a) && NodesDisjoint(a, leafLayer) ==>
          ChildrenDisjoint(end.arena) && PairwiseDisjoint(end.arena, end.layer))
  }

  /** A finished run that keeps what the merge loop keeps is a build. */
  lemma Settle(p: Params, a: Arena, leafLayer: seq<NodeId>, adj: map<NodeId, set<NodeId>>,
               merges: seq<Candidate>, end: State)
    requires WellFormed(a) && InArena(a, leafLayer)
    requires forall x :: x in adj ==> x < |a| && forall y :: y in adj[x] ==> y < |a|
    requires Inv(p, end) && Finished(p, end) && Run(p, Start(p, a, leafLayer, adj), merges, end)
    requires |a| <= |end.arena| && end.arena[..|a|] == a
    requires |end.arena| - |a| == |merges| == |Dedup(leafLayer)| - |end.layer|
    requires Covered(end) == Covered(Start(p, a, leafLayer, adj))
    requires Layered(a) ==> Layered(end.arena)
    requires Disjoint(Start(p, a, leafLayer, adj)) ==> Disjoint(end)
    requires Disjoint(Start(p, a, leafLayer, adj)) && ChildrenDisjoint(a) ==> ChildrenDisjoint(end.arena)
    ensures Built(p, a, leafLayer, adj, merges, end)
  {
    StartInv(p, a, leafLayer, adj);
    CoveredIsContents(p, end);
    if NodesDisjoint(a, leafLayer) {
      StartDisjoint(p, a, leafLayer, adj);
      DisjointLayer(p, end);
    }
  }

  /** The body both phases share: start from the leaf layer and merge until
      no pair is admissible. A thread pool of no or a negative number of
      threads throws once a round is needed; the model reports InvalidInput.
      The run fails otherwise only when the next winner's second node has
      no adjacency entry, which a symmetric adjacency map rules out. */
  method Build(p: Params, a: Arena, leafLayer: seq<NodeId>, adj: map<NodeId, set<NodeId>>)
    returns (r: Result<State>, merges: seq<Candidate>)
    requires WellFormed(a) && InArena(a, leafLayer)
    requires forall x :: x in adj ==> x < |a| && forall y :: y in adj[x] ==> y < |a|
    ensures r.Failure? && r.error == InvalidInput <==> p.workers <= 0 && |Dedup(leafLayer)| > 1
    ensures r.Failure? ==> r.error == InvalidInput || (r.error == MissingAdjacencyKey && p.constrained && !Symmetric(adj))
    ensures r.Failure? && r.error == MissingAdjacencyKey ==> StuckAfter(p, Start(p, a, leafLayer, adj), merges)
    ensures r.Success? ==> Built(p, a, leafLayer, adj, merges, r.value)
  {
    var st := Start(p, a, leafLayer, adj);
    StartInv(p, a, leafLayer, adj);
    if p.workers <= 0 {
      if |st.layer| > 1 {
        return Failure(InvalidInput), [];
      }
      r, merges := Success(st), [];
      Settle(p, a, leafLayer, adj, merges, st);
      return;
    }
    r, merges := Agglomerate(p, st);
    if r.Success? {
      Settle(p, a, leafLayer, adj, merges, r.value);
    }
  }

  /** Without an adjacency map, the engine stops with more than one region
      only when every region has reached the size floor. */
  lemma UnconstrainedStopsAtFloor(p: Params, st: State)
    requires !p.constrained && Finished(p, st) && |st.layer| >= 2
    ensures p.minSize.Some?
    ensures forall k :: 0 <= k < |st.layer| ==> |Region(st, st.layer[k])| >= p.minSize.value
  {
    assert !Admissible(p, st, 0, 1);
    forall k | 0 <= k < |st.layer| ensures |Region(st, st.layer[k])| >= p.minSize.value {
      if k == 0 {
        assert !Admissible(p, st, 0, 1);
      } else {
        assert !Admissible(p, st, 0, k);
      }
    }
  }
}

=== FILE: geo_utils.dfy ===
/** The neighbour selection of GeoUtils.java: full distance matrices, the
    k nearest samples of every sample, and the k nearest entries of every
    row of a given matrix. Distances are an opaque function returning reals;
    samples are compared by identity, modelled as equality of `T`. */
module GeoUtils {
  import opened Results

  // ---------------------------------------------------------------------
  // getDistanceMatrix

  /** `getDistanceMatrix`: one row per sample, holding the distance to
      every sample, the sample itself only when `withIdentity` is set. */
  method DistanceMatrix<T(==)>(samples: seq<T>, dist: (T, T) -> real, withIdentity: bool)
    returns (r: map<T, map<T, real>>)
    ensures forall a :: a in r <==> a in samples
    ensures forall a, b :: a in r ==> (b in r[a] <==> b in samples && (b != a || withIdentity))
    ensures forall a, b :: a in r && b in r[a] ==> r[a][b] == dist(a, b)
  {
    r := map[];
    var i := 0;
    while i < |samples|
      invariant i <= |samples|
      invariant forall a :: a in r <==> a in samples[..i]
      invariant forall a, b :: a in r ==> (b in r[a] <==> b in samples && (b != a || withIdentity))
      invariant forall a, b :: a in r && b in r[a] ==> r[a][b] == dist(a, b)
    {
      var a := samples[i];
      var row := map[];
      var j := 0;
      while j < |samples|
        invariant j <= |samples|
        invariant forall b :: b in row <==> b in samples[..j] && (b != a || withIdentity)
        invariant forall b :: b in row ==> row[b] == dist(a, b)
      {
        var b := samples[j];
        assert samples[..j + 1] == samples[..j] + [b];
        if !(a == b && !withIdentity) {
          row := row[b := dist(a, b)];
        }
        j := j + 1;
      }
      assert samples[..j] == samples;
      assert samples[..i + 1] == samples[..i] + [a];
      r := r[a := row];
      i := i + 1;
    }
    assert samples[..i] == samples;
  }

  /** A symmetric distance gives a symmetric matrix. */
  lemma DistanceMatrixSymmetric<T>(samples: seq<T>, dist: (T, T) -> real, withIdentity: bool, r: map<T, map<T, real>>)
    requires forall a :: a in r <==> a in samples
    requires forall a, b :: a in r ==> (b in r[a] <==> b in samples && (b != a || withIdentity))
    requires forall a, b :: a in r && b in r[a] ==> r[a][b] == dist(a, b)
    requires forall x, y :: dist(x, y) == dist(y, x)
    ensures forall a, b :: a in r && b in r[a] ==> b in r && a in r[b] && r[a][b] == r[b][a]
  {
  }

  // ---------------------------------------------------------------------
  // Ordering by a key

  predicate SortedBy<T>(s: seq<T>, key: T -> real) {
    forall i, j :: 0 <= i < j < |s| ==> key(s[i]) <= key(s[j])
  }

  /** Inserts `x` after every leading element whose key does not exceed its own. */
  function InsertBy<T>(x: T, s: seq<T>, key: T -> real): (r: seq<T>)
    ensures |r| == |s| + 1 && (r[0] == x || (s != [] && r[0] == s[0]))
  {
    if s == [] then [x]
    else if key(x) < key(s[0]) then [x] + s
    else [s[0]] + InsertBy(x, s[1..], key)
  }

  /** Inserting into a sorted sequence keeps it sorted. */
  lemma {:induction false} InsertBySorted<T>(x: T, s: seq<T>, key: T -> real)
    requires SortedBy(s, key)
    ensures SortedBy(InsertBy(x, s, key), key)
  {
    if s != [] && key(s[0]) <= key(x) {
      var rest := InsertBy(x, s[1..], key);
      var r := [s[0]] + rest;
      InsertBySorted(x, s[1..], key);
      assert key(s[0]) <= key(rest[0]);
      forall i, j | 0 <= i < j < |r| ensures key(r[i]) <= key(r[j]) {
        assert r[j] == rest[j - 1];
        if i > 0 {
          assert r[i] == rest[i - 1];
        }
      }
    }
  }

  /** Inserting adds exactly the one element. */
  lemma {:induction false} InsertByPermutes<T>(x: T, s: seq<T>, key: T -> real)
    ensures multiset(InsertBy(x, s, key)) == multiset(s) + multiset{x}
  {
    if s != [] && key(s[0]) <= key(x) {
      InsertByPermutes(x, s[1..], key);
      assert s == [s[0]] + s[1..];
    }
  }

  /** A stable sort by key: the order in which a priority queue keyed by
      `key` hands out the elements, equal keys resolved by position. */
  function SortBy<T>(s: seq<T>, key: T -> real): (r: seq<T>)
    ensures SortedBy(r, key)
    ensures multiset(r) == multiset(s)
  {
    if s == [] then []
    else
      var init := SortBy(s[..|s| - 1], key);
      assert s == s[..|s| - 1] + [s[|s| - 1]];
      InsertBySorted(s[|s| - 1], init, key);
      InsertByPermutes(s[|s| - 1], init, key);
      InsertBy(s[|s| - 1], init, key)
  }

  // ---------------------------------------------------------------------
  // getKNNs

  /** The first `k` entries handed out after optionally discarding one; a
      poll of an empty queue yields the source's null, here `None`. */
  function Window<T>(s: seq<T>, dropFirst: bool, k: int): (r: seq<Option<T>>)
    ensures |r| == if k < 0 then 0 else k
  {
    var rest := if dropFirst && s != [] then s[1..] else s;
    seq(if k < 0 then 0 else k, i => if 0 <= i < |rest| then Some(rest[i]) else None)
  }

  /** `w` is the window of some arrangement of `samples` by increasing key
      (the source's queue leaves the order of equal keys open). */
  ghost predicate IsWindowOfSorted<T(!new)>(w: seq<Option<T>>, samples: seq<T>, key: T -> real, dropFirst: bool, k: int) {
    exists s :: SortedBy(s, key) && multiset(s) == multiset(samples) && w == Window(s, dropFirst, k)
  }

  /** `getKNNs`: for every sample, the other samples in order of increasing
      distance from it, the nearest discarded unless `includeIdentity`,
      cut to `k` entries and padded with nulls when fewer are left. */
  function KNNs<T(==,!new)>(samples: seq<T>, dist: (T, T) -> real, k: int, includeIdentity: bool): (r: map<T, seq<Option<T>>>)
    ensures forall x :: x in r <==> x in samples
    ensures forall x :: x in r ==> |r[x]| == if k < 0 then 0 else k
    ensures forall x :: x in r ==> IsWindowOfSorted(r[x], samples, y => dist(x, y), !includeIdentity, k)
  {
    map x | x in samples :: Window(SortBy(samples, y => dist(x, y)), !includeIdentity, k)
  }

  /** A kNN list holds samples, nearest first, and nothing left out is
      nearer than anything kept. */
  lemma KNNsAreNearest<T>(samples: seq<T>, key: T -> real, s: seq<T>, dropFirst: bool, k: int)
    requires SortedBy(s, key) && multiset(s) == multiset(samples)
    ensures var w := Window(s, dropFirst, k);
      && (forall i :: 0 <= i < |w| && w[i].Some? ==> w[i].value in samples)
      && (forall i, j :: 0 <= i < j < |w| && w[i].Some? && w[j].Some? ==> key(w[i].value) <= key(w[j].value))
      && (forall i, j :: 0 <= i < j < |w| && w[i].None? ==> w[j].None?)
      && (forall i, m :: 0 <= i < |w| && w[i].Some? && (if dropFirst then 1 else 0) + k <= m < |s| ==>
            key(w[i].value) <= key(s[m]))
  {
    var w := Window(s, dropFirst, k);
    var off := if dropFirst && s != [] then 1 else 0;
    forall i | 0 <= i < |w| && w[i].Some? ensures w[i].value in samples && w[i].value == s[i + off] {
      assert s[i + off] in multiset(s);
    }
  }

  // ---------------------------------------------------------------------
  // getKNearestFromMatrix

  /** `sub` keeps `k` entries of `row`, with their values, and no dropped
      entry has a smaller value than a kept one. */
  ghost predicate KNearest<T>(row: map<T, real>, sub: map<T, real>, k: int) {
    && sub.Keys <= row.Keys
    && |sub| == (if k < 0 then 0 else k)
    && (forall b :: b in sub ==> sub[b] == row[b])
    && (forall b, c :: b in sub && c in row && c !in sub ==> row[b] <= row[c])
  }

  /** A non-empty set of entries of a row has an entry of least value. */
  lemma {:induction false} LeastExists<T>(row: map<T, real>, s: set<T>)
    requires s != {} && s <= row.Keys
    ensures exists d :: d in s && forall e :: e in s ==> row[d] <= row[e]
    decreases |s|
  {
    var x :| x in s;
    if s != {x} {
      LeastExists(row, s - {x});
      var d :| d in s - {x} && forall e :: e in s - {x} ==> row[d] <= row[e];
      if row[x] < row[d] {
        assert forall e :: e in s ==> row[x] <= row[e];
      } else {
        assert forall e :: e in s ==> row[d] <= row[e];
      }
    } else {
      assert forall e :: e in s ==> row[x] <= row[e];
    }
  }

  /** While fewer than `|row|` entries are kept, some entry is left. */
  lemma SomeLeft<T>(row: map<T, real>, sub: map<T, real>)
    requires sub.Keys <= row.Keys && |sub| < |row|
    ensures row.Keys - sub.Keys != {}
  {
    var left := row.Keys - sub.Keys;
    assert row.Keys == left + sub.Keys;
    assert |row.Keys| <= |left| + |sub.Keys|;
  }

  /** Keeping a least remaining entry keeps the kept entries the least. */
  lemma KeepLeast<T>(row: map<T, real>, sub: map<T, real>, d: T)
    requires sub.Keys <= row.Keys && d in row && d !in sub
    requires forall b :: b in sub ==> sub[b] == row[b]
    requires forall b, c :: b in sub && c in row && c !in sub ==> row[b] <= row[c]
    requires forall e :: e in row.Keys - sub.Keys ==> row[d] <= row[e]
    ensures var sub' := sub[d := row[d]];
      && sub'.Keys <= row.Keys && |sub'| == |sub| + 1
      && (forall b :: b in sub' ==> sub'[b] == row[b])
      && (forall b, c :: b in sub' && c in row && c !in sub' ==> row[b] <= row[c])
  {
  }

  /** The sub-row of one row: the entries kept, and whether the loop also
      polled the exhausted queue, whose `null` it puts as the entry
      `null -> null`. */
  datatype NearestRow<T> = NearestRow(kept: map<T, real>, withNull: bool)

  /** `r` is what the loop leaves for `row`: the `k` least entries, or, when
      `k` exceeds the row by one, the whole row and the null entry. */
  ghost predicate KNearestRow<T>(row: map<T, real>, r: NearestRow<T>, k: int) {
    && (r.withNull <==> k == |row| + 1)
    && KNearest(row, r.kept, if r.withNull then |row| else k)
  }

  /** Keeping as many entries as the row has keeps the whole row. */
  lemma KeepAllIsRow<T>(row: map<T, real>, sub: map<T, real>)
    requires KNearest(row, sub, |row|)
    ensures sub == row
  {
    var extra := row.Keys - sub.Keys;
    assert row.Keys == sub.Keys + extra && sub.Keys !! extra;
    assert |row.Keys| == |sub.Keys| + |extra|;
    assert extra == {};
    assert sub.Keys == row.Keys;
  }

  /** One row: poll the least entry until `k` are kept, the poll past the
      last entry adding the null entry. */
  method NearestOfRow<T(==)>(row: map<T, real>, k: int) returns (r: NearestRow<T>)
    requires k <= |row| + 1
    ensures KNearestRow(row, r, k)
    ensures r.withNull ==> r.kept == row
  {
    var want := if k == |row| + 1 then |row| else k;
    var sub: map<T, real> := map[];
    while |sub| < want
      invariant sub.Keys <= row.Keys && |sub| <= (if want < 0 then 0 else want)
      invariant forall b :: b in sub ==> sub[b] == row[b]
      invariant forall b, c :: b in sub && c in row && c !in sub ==> row[b] <= row[c]
      decreases want - |sub|
    {
      SomeLeft(row, sub);
      var left := row.Keys - sub.Keys;
      LeastExists(row, left);
      var d :| d in left && forall e :: e in left ==> row[d] <= row[e];
      KeepLeast(row, sub, d);
      sub := sub[d := row[d]];
    }
    r := NearestRow(sub, k == |row| + 1);
    if r.withNull {
      KeepAllIsRow(row, sub);
    }
  }

  /** Every row handled so far holds the `k` least entries of its row. */
  ghost predicate RowsNearest<T>(m: map<T, map<T, real>>, acc: map<T, NearestRow<T>>, k: int) {
    forall a :: a in acc ==> a in m && KNearestRow(m[a], acc[a], k)
  }

  lemma AddRow<T>(m: map<T, map<T, real>>, acc: map<T, NearestRow<T>>, k: int, a: T, sub: NearestRow<T>)
    requires RowsNearest(m, acc, k) && a in m && KNearestRow(m[a], sub, k)
    ensures RowsNearest(m, acc[a := sub], k)
  {
  }

  /** Moving one key from the to-do set into the result. */
  lemma MoveKey<T, V>(keys: set<T>, todo: set<T>, acc: map<T, V>, a: T, v: V)
    requires todo <= keys && acc.Keys == keys - todo && a in todo
    ensures acc[a := v].Keys == keys - (todo - {a})
    ensures |todo - {a}| < |todo|
  {
  }

  /** `getKNearestFromMatrix`: every row cut to its `k` least entries. The
      source's priority queue is sized by the row, and a queue of capacity
      0 is refused, so an empty row is an error whatever `k` is. Beyond one
      poll past the end of a row the source's loop never ends, since the
      null key it keeps putting does not grow the sub-row. */
  method KNearestFromMatrix<T(==)>(m: map<T, map<T, real>>, k: int) returns (r: Result<map<T, NearestRow<T>>>)
    requires forall a :: a in m && |m[a]| > 0 ==> k <= |m[a]| + 1
    ensures r.Failure? <==> exists a :: a in m && |m[a]| == 0
    ensures r.Failure? ==> r.error == InvalidInput
    ensures r.Success? ==> r.value.Keys == m.Keys
    ensures r.Success? ==> forall a :: a in m ==> KNearestRow(m[a], r.value[a], k)
  {
    if exists a :: a in m && |m[a]| == 0 {
      return Failure(InvalidInput);
    }
    var acc: map<T, NearestRow<T>> := map[];
    var todo := m.Keys;
    while todo != {}
      invariant todo <= m.Keys && acc.Keys == m.Keys - todo
      invariant RowsNearest(m, acc, k)
      decreases |todo|
    {
      var a :| a in todo;
      var sub := NearestOfRow(m[a], k);
      AddRow(m, acc, k, a, sub);
      MoveKey(m.Keys, todo, acc, a, sub);
      acc := acc[a := sub];
      todo := todo - {a};
    }
    return Success(acc);
  }
}

=== FILE: regio_clust.dfy ===
/** The second phase of RegioClust.java: the regions of the first phase are
    merged by the growth of a regression's residual sum of squares, each
    region only with its neighbours, until no neighbouring pair is left. */
module RegioClust {
  import opened Results
  import opened Tree
  import opened Adjacency
  import opened Engine
  import opened Clustering

  /** The engine settings of `getFunctionalClusterinTree`: the adjacency
      constraint is always on and there is no size floor. */
  function RegressionParams(rss: set<Obs> -> real, workers: int): (p: Params)
    ensures p.model == Spread(rss) && p.constrained && p.minSize.None? && p.workers == workers
  {
    Params(Spread(rss), true, None, workers)
  }

  /** The regression phase admits exactly the registered neighbour pairs
      `i < j`, whatever the sizes of their regions. */
  lemma RegressionAdmission(rss: set<Obs> -> real, workers: int, st: State, i: nat, j: nat)
    ensures Admissible(RegressionParams(rss, workers), st, i, j) <==>
      i < j < |st.layer| && st.layer[i] in st.adj && st.layer[j] in st.adj[st.layer[i]]
  {
  }

  /** Builds the regression merge tree above `leafLayer` and returns the
      final state, whose layer holds the roots. Without an adjacency map
      nothing is a neighbour of anything, so nothing is merged. Unlike the
      first phase, an empty leaf layer is accepted. */
  method FunctionalClusterTree(a: Arena, leafLayer: seq<NodeId>, cm: Option<map<NodeId, set<NodeId>>>,
                               rss: set<Obs> -> real, workers: int)
    returns (r: Result<State>, merges: seq<Candidate>)
    requires WellFormed(a) && InArena(a, leafLayer)
    requires cm.Some? ==> MentionsArena(a, cm.value)
    ensures r.Failure? && r.error == InvalidInput <==> workers <= 0 && |Dedup(leafLayer)| > 1
    ensures r.Failure? ==> r.error == InvalidInput || (r.error == MissingAdjacencyKey && cm.Some? && !Symmetric(cm.value))
    ensures r.Failure? && r.error == MissingAdjacencyKey ==>
      var p := RegressionParams(rss, workers);
      StuckAfter(p, Start(p, a, leafLayer, AdjacencyOf(cm)), merges)
    ensures r.Success? ==> Built(RegressionParams(rss, workers), a, leafLayer, AdjacencyOf(cm), merges, r.value)
  {
    r, merges := Build(RegressionParams(rss, workers), a, leafLayer, AdjacencyOf(cm));
  }

  /** Without an adjacency map, the regression phase returns its leaf
      layer unchanged. */
  lemma NoAdjacencyNoMerge(a: Arena, leafLayer: seq<NodeId>, rss: set<Obs> -> real, workers: int, merges: seq<Candidate>, end: State)
    requires WellFormed(a) && InArena(a, leafLayer) && workers > 0
    requires var p := RegressionParams(rss, workers);
      Run(p, Start(p, a, leafLayer, map[]), merges, end)
    ensures merges == [] && end.layer == Dedup(leafLayer) && end.arena == a
  {
  }

  /** `y` is a neighbour of `x` at node level: an observation of `x` has,
      in the observation-level map, a neighbour observation of `y`. */
  predicate Linked(a: Arena, cma: map<Obs, set<Obs>>, x: NodeId, y: NodeId)
    requires WellFormed(a) && x < |a| && y < |a|
  {
    exists o, nb :: o in Contents(a, x) && o in cma && nb in cma[o] && nb in Contents(a, y)
  }

  /** Every observation held by a node of the layer has an entry in the map. */
  predicate Covers(a: Arena, layer: seq<NodeId>, cma: map<Obs, set<Obs>>)
    requires WellFormed(a) && InArena(a, layer)
  {
    forall k, o :: 0 <= k < |layer| && o in Contents(a, layer[k]) ==> o in cma
  }

  /** `getCMforCurLayer`: lifts the observation-level neighbour map to the
      nodes of the current layer. An observation without an entry is the
      source's null dereference. */
  function NodeAdjacency(a: Arena, layer: seq<NodeId>, cma: map<Obs, set<Obs>>): (r: Result<map<NodeId, set<NodeId>>>)
    requires WellFormed(a) && InArena(a, layer)
    ensures r.Success? <==> Covers(a, layer, cma)
    ensures r.Failure? ==> r.error == MissingNeighbours
    ensures r.Success? ==> forall x :: x in r.value <==> x in layer
    ensures r.Success? ==> forall x, y :: x in r.value && y in layer ==>
      (y in r.value[x] <==> Linked(a, cma, x, y))
    ensures r.Success? ==> forall x :: x in r.value ==> r.value[x] <= set y | y in layer
  {
    if !Covers(a, layer, cma) then Failure(MissingNeighbours)
    else
      Success(map x | x in layer :: set y | y in layer && Linked(a, cma, x, y))
  }

  /** A symmetric observation-level map gives a symmetric node-level map. */
  lemma NodeAdjacencySymmetric(a: Arena, layer: seq<NodeId>, cma: map<Obs, set<Obs>>)
    requires WellFormed(a) && InArena(a, layer)
    requires Covers(a, layer, cma) && Symmetric(cma)
    ensures Symmetric(NodeAdjacency(a, layer, cma).value)
  {
    var r := NodeAdjacency(a, layer, cma).value;
    forall x, y | x in r && y in r[x] ensures y in r && x in r[y] {
      assert Linked(a, cma, x, y);
      var o, nb :| o in Contents(a, x) && o in cma && nb in cma[o] && nb in Contents(a, y);
      assert o in cma[nb];
      assert Linked(a, cma, y, x);
    }
  }
}

=== FILE: results.dfy ===
/** Failure-carrying result types shared by every module of the model. */
module Results {

  /** A value that may be absent; stands for Java's `null` and for the
      sentinel costs (`Double.MAX_VALUE`, `POSITIVE_INFINITY`) that mean
      "no candidate found". */
  datatype Option<T> = None | Some(value: T)

  /** The ways the modelled code stops without a result. */
  datatype Error =
    | InvalidInput             // empty leaf layer or a leaf layer without observations
    | InsufficientObservations // a tree cut asked for more clusters than there are leaves
    | MissingNeighbours        // an observation or node has no entry in the neighbour map
    | MissingAdjacencyKey      // a merged node has no entry in the adjacency map

  datatype Result<T> = Success(value: T) | Failure(error: Error)
}

=== FILE: sequences.dfy ===
/** Facts about sequences shared by several modules. */
module Sequences {
  /** Removing the element at position `k` removes one occurrence of it. */
  lemma RemoveAtMultiset<T>(s: seq<T>, k: nat)
    requires k < |s|
    ensures multiset(s[..k] + s[k + 1..]) == multiset(s) - multiset{s[k]}
  {
    assert s == s[..k] + [s[k]] + s[k + 1..];
  }
}

=== FILE: tree.dfy ===
/** The binary merge trees of Clustering.java. Nodes live in an append-only
    arena and are addressed by their position in it; a node's children
    always sit at smaller positions, so every tree is a finite DAG. */
module Tree {
  import opened Results
  import opened Adjacency

  /** An observation, identified by position (the source compares the
      observation vectors by reference, never by value). */
  type Obs = nat

  /** Position of a node in the arena. */
  type NodeId = nat

  /** A tree node: leaves have age 0, cost 0 and a singleton content set;
      merge nodes carry the merge cost, no contents of their own and the
      two merged nodes as children. */
  datatype TreeNode = TreeNode(age: nat, cost: real, children: seq<NodeId>, contents: set<Obs>)

  type Arena = seq<TreeNode>

  /** Every node has zero or two children, and they were created before it. */
  predicate WellFormed(a: Arena) {
    forall n :: 0 <= n < |a| ==>
      && (|a[n].children| == 0 || |a[n].children| == 2)
      && (forall k :: 0 <= k < |a[n].children| ==> a[n].children[k] < n)
  }

  /** The node records the merge that created it: leaves have age 0 and no
      children, every other node has two strictly younger children. */
  predicate Layered(a: Arena) {
    && WellFormed(a)
    && forall n :: 0 <= n < |a| ==>
         && (a[n].age == 0 <==> a[n].children == [])
         && (forall k :: 0 <= k < |a[n].children| ==> a[a[n].children[k]].age < a[n].age)
  }

  /** A set that contains the children of each of its nodes. */
  ghost predicate ClosedUnderChildren(a: Arena, s: set<NodeId>) {
    forall x, k :: x in s && x < |a| && 0 <= k < |a[x].children| ==> a[x].children[k] in s
  }

  /** The node and all its descendants. */
  function Subtree(a: Arena, n: NodeId): (r: set<NodeId>)
    requires WellFormed(a) && n < |a|
    ensures n in r
    ensures forall m :: m in r ==> m <= n
    ensures ClosedUnderChildren(a, r)
    decreases n
  {
    if a[n].children == [] then {n}
    else {n} + Subtree(a, a[n].children[0]) + Subtree(a, a[n].children[1])
  }

  /** The subtree is the least set holding the node and closed under children. */
  lemma {:induction false} SubtreeIsLeast(a: Arena, n: NodeId, s: set<NodeId>)
    requires WellFormed(a) && n < |a|
    requires n in s && ClosedUnderChildren(a, s)
    ensures Subtree(a, n) <= s
    decreases n
  {
    if a[n].children != [] {
      assert a[n].children[0] in s && a[n].children[1] in s;
      SubtreeIsLeast(a, a[n].children[0], s);
      SubtreeIsLeast(a, a[n].children[1], s);
    }
  }

  /** The age-0 nodes of the subtree. */
  function LeafLayer(a: Arena, n: NodeId): set<NodeId>
    requires WellFormed(a) && n < |a|
  {
    set m | m in Subtree(a, n) && a[m].age == 0
  }

  /** The observations held by the leaf layer. */
  function Contents(a: Arena, n: NodeId): set<Obs>
    requires WellFormed(a) && n < |a|
  {
    set m, o | m in LeafLayer(a, n) && o in a[m].contents :: o
  }

  /** Contents follow the tree: a node's own contents count when it has
      age 0, and its children's contents always count. */
  lemma ContentsUnfold(a: Arena, n: NodeId)
    requires WellFormed(a) && n < |a|
    ensures a[n].children == [] ==> Contents(a, n) == (if a[n].age == 0 then a[n].contents else {})
    ensures a[n].children != [] ==>
      Contents(a, n) == (if a[n].age == 0 then a[n].contents else {})
                        + Contents(a, a[n].children[0]) + Contents(a, a[n].children[1])
  {
    var ll := LeafLayer(a, n);
    if a[n].children != [] {
      var c0, c1 := a[n].children[0], a[n].children[1];
      assert ll == (if a[n].age == 0 then {n} else {}) + LeafLayer(a, c0) + LeafLayer(a, c1);
    } else {
      assert ll == (if a[n].age == 0 then {n} else {});
    }
  }

  /** A merge node holds exactly the contents of its two children. */
  lemma ContentsOfMergeNode(a: Arena, n: NodeId)
    requires WellFormed(a) && n < |a|
    requires a[n].age > 0 && |a[n].children| == 2
    ensures Contents(a, n) == Contents(a, a[n].children[0]) + Contents(a, a[n].children[1])
  {
    ContentsUnfold(a, n);
  }

  /** A prefix of a well-formed arena is well formed. */
  lemma PrefixWellFormed(a: Arena, b: Arena)
    requires WellFormed(b) && |a| <= |b| && a == b[..|a|]
    ensures WellFormed(a)
  {
    forall n | 0 <= n < |a|
      ensures (|a[n].children| == 0 || |a[n].children| == 2)
      ensures forall k :: 0 <= k < |a[n].children| ==> a[n].children[k] < n
    {
      assert a[n] == b[n];
    }
  }

  /** Appending nodes to the arena does not change existing subtrees. */
  lemma {:induction false} SubtreeStable(a: Arena, b: Arena, n: NodeId)
    requires WellFormed(b) && |a| <= |b| && a == b[..|a|] && n < |a|
    ensures WellFormed(a)
    ensures Subtree(a, n) == Subtree(b, n)
    decreases n
  {
    PrefixWellFormed(a, b);
    assert a[n] == b[n];
    if a[n].children != [] {
      SubtreeStable(a, b, a[n].children[0]);
      SubtreeStable(a, b, a[n].children[1]);
    }
  }

  /** Appending nodes to the arena does not change existing contents. */
  lemma ContentsStable(a: Arena, b: Arena, n: NodeId)
    requires WellFormed(b) && |a| <= |b| && a == b[..|a|] && n < |a|
    ensures WellFormed(a)
    ensures Contents(a, n) == Contents(b, n)
  {
    SubtreeStable(a, b, n);
    assert LeafLayer(a, n) == LeafLayer(b, n) by {
      forall m | m in Subtree(a, n) ensures a[m] == b[m] { }
    }
    forall m | m in LeafLayer(a, n) ensures a[m] == b[m] { }
  }

  /** Every listed node is a node of the arena. */
  predicate InArena(a: Arena, q: seq<NodeId>) {
    forall k :: 0 <= k < |q| ==> q[k] < |a|
  }

  /** The two children of every merge node hold disjoint observations. */
  ghost predicate ChildrenDisjoint(a: Arena)
    requires WellFormed(a)
  {
    forall n :: 0 <= n < |a| && a[n].children != [] ==>
      Contents(a, a[n].children[0]) !! Contents(a, a[n].children[1])
  }

  /** No observation is held by two different queued nodes. */
  ghost predicate PairwiseDisjoint(a: Arena, q: seq<NodeId>)
    requires WellFormed(a) && InArena(a, q)
  {
    forall x, y :: 0 <= x < |q| && 0 <= y < |q| && x != y ==> Contents(a, q[x]) !! Contents(a, q[y])
  }

  /** Different nodes of the list hold disjoint observations; a node listed
      twice is not compared with itself. */
  ghost predicate NodesDisjoint(a: Arena, q: seq<NodeId>)
    requires WellFormed(a) && InArena(a, q)
  {
    forall x, y :: 0 <= x < |q| && 0 <= y < |q| && q[x] != q[y] ==> Contents(a, q[x]) !! Contents(a, q[y])
  }

  /** The observations held by the listed nodes together. */
  function LayerContents(a: Arena, q: seq<NodeId>): set<Obs>
    requires WellFormed(a) && InArena(a, q)
  {
    set k, o | 0 <= k < |q| && o in Contents(a, q[k]) :: o
  }

  /** One cluster per root: the contents of each root, in order. */
  function TreeToCluster(a: Arena, roots: seq<NodeId>): (r: seq<set<Obs>>)
    requires WellFormed(a) && forall i :: 0 <= i < |roots| ==> roots[i] < |a|
    ensures |r| == |roots|
    ensures forall i :: 0 <= i < |roots| ==> r[i] == Contents(a, roots[i])
  {
    seq(|roots|, i requires 0 <= i < |roots| => Contents(a, roots[i]))
  }

  /** One fresh leaf per sample, in order. */
  function SamplesToTree(samples: seq<Obs>): (r: Arena)
  {
    seq(|samples|, i requires 0 <= i < |samples| => TreeNode(0, 0.0, [], {samples[i]}))
  }

  /** The leaves built from the samples form a well-formed, layered arena in
      which leaf `i` is its own leaf layer and holds exactly sample `i`. */
  lemma SamplesToTreeLeaves(samples: seq<Obs>)
    ensures var r := SamplesToTree(samples);
      && |r| == |samples| && WellFormed(r) && Layered(r)
      && forall i :: 0 <= i < |samples| ==>
           && r[i].age == 0 && r[i].cost == 0.0
           && LeafLayer(r, i) == {i} && Contents(r, i) == {samples[i]}
  {
    var r := SamplesToTree(samples);
    forall i | 0 <= i < |samples|
      ensures r[i].age == 0 && r[i].cost == 0.0
      ensures LeafLayer(r, i) == {i} && Contents(r, i) == {samples[i]}
    {
      assert r[i] == TreeNode(0, 0.0, [], {samples[i]});
      assert Subtree(r, i) == {i};
      assert LeafLayer(r, i) == {i};
    }
  }

  /** Every node mentioned by a neighbour map, as key or as neighbour. */
  function GetNodes<T(!new)>(cm: map<T, set<T>>): (r: set<T>)
    ensures forall x :: x in r <==> x in cm || exists k :: k in cm && x in cm[k]
  {
    cm.Keys + (set k, x | k in cm && x in cm[k] :: x)
  }

  /** The source's loop: start from the keys, then add each key's
      neighbours in turn; it collects exactly `GetNodes(cm)`. */
  method CollectNodes<T(!new)>(cm: map<T, set<T>>) returns (r: set<T>)
    ensures r == GetNodes(cm)
  {
    r := cm.Keys;
    var todo := cm.Keys;
    while todo != {}
      invariant todo <= cm.Keys
      invariant forall x :: x in r <==> x in cm || exists k :: k in cm && k !in todo && x in cm[k]
      decreases todo
    {
      var k :| k in todo;
      r := r + cm[k];
      todo := todo - {k};
    }
  }

  /** The nodes of a map are just its keys exactly when every neighbour is
      itself a key, which a symmetric map guarantees. */
  lemma GetNodesIsKeys<T(!new)>(cm: map<T, set<T>>)
    ensures GetNodes(cm) == cm.Keys <==> forall k, x :: k in cm && x in cm[k] ==> x in cm
    ensures Symmetric(cm) ==> GetNodes(cm) == cm.Keys
  {
  }

  /** Whether `order` lists every element of `s` exactly once. */
  predicate Enumerates<T(==)>(order: seq<T>, s: set<T>) {
    && (forall i, j :: 0 <= i < j < |order| ==> order[i] != order[j])
    && (forall i :: 0 <= i < |order| ==> order[i] in s)
    && (forall x :: x in s ==> x in order)
  }

  /** Lifts an observation-level neighbour map to one leaf per observation,
      the leaves listed in `order` (the iteration order of the source's
      hash set). Every listed observation must be a key of `cm`. */
  function SamplesCMtoTreeCM(cm: map<Obs, set<Obs>>, order: seq<Obs>): (r: Result<(Arena, map<NodeId, set<NodeId>>)>)
    requires Enumerates(order, GetNodes(cm))
    ensures r.Success? <==> GetNodes(cm) == cm.Keys
    ensures r.Failure? ==> r.error == MissingNeighbours
    ensures r.Success? ==>
      && r.value.0 == SamplesToTree(order)
      && (forall i: NodeId :: i in r.value.1 <==> i < |order|)
      && forall i: NodeId, j: NodeId :: i < |order| && j < |order| ==>
           (j in r.value.1[i] <==> order[j] in cm[order[i]])
  {
    if exists i :: 0 <= i < |order| && order[i] !in cm then Failure(MissingNeighbours)
    else
      var ncm := map i | 0 <= i < |order| :: set j | 0 <= j < |order| && order[j] in cm[order[i]];
      Success((SamplesToTree(order), ncm))
  }

  /** A symmetric observation-level map gives a symmetric leaf-level map. */
  lemma SamplesCMtoTreeCMSymmetric(cm: map<Obs, set<Obs>>, order: seq<Obs>)
    requires Enumerates(order, GetNodes(cm)) && Symmetric(cm)
    ensures SamplesCMtoTreeCM(cm, order).Success?
    ensures Symmetric(SamplesCMtoTreeCM(cm, order).value.1)
  {
    var r := SamplesCMtoTreeCM(cm, order);
    assert r.Success?;
  }
}
